=== FILE: README.md ===
# Call-centre live chat: a verified model of its decision and state logic

This project models a call-centre web application. It has an Express and
Socket.IO backend and a React frontend with a SIP softphone. The model lifts
the parts of the application that make decisions or keep state, and states
what they promise:

- **The agent softphone** (`SipCall`). This is the call-leg state machine of
  the softphone hook.
  - It has three session slots: the active session, the held session and the
    incoming session.
  - It keeps a call status and the mute and hold flags.
  - It implements call waiting: answering while on a call holds the current
    call, and the held call is resumed when the second call ends. Hold and
    resume use a re-INVITE (offer/answer hold, section 8.4 of RFC 3264).
  - It returns from `ended` to `idle` on a timer.
- **The real-time relay** (`Relay`). This covers:
  - extraction of the extension from a SIP URI (the user part of a
    `sip:` URI, section 19.1 of RFC 3261);
  - the stored record for a telephony message and for a channel message;
  - room and sender fan-out, and the AMI `MessageSend` relay;
  - the connection guard, status updates, the per-agent history and
    disconnects.
- **The admin routes** (`AdminRoutes`). This covers:
  - the agent statistics, the online-agent list, the consistency probe and
    the recent-activity feed;
  - creation, update and password reset of agents over a user table;
  - the presence reconciliation loop (`sync-agent-status`).
- **The dashboard statistics** of the call routes (`CallRoutes`). These
  include the queue-length arithmetic.
- **The settings store** on the server (`SettingsRoutes`): defaults merged
  with saved categories, validated upsert and broadcast, and lookup.
- **The settings page** (`SettingsPage`): the per-key edit, the broadcast
  patch, the fetch merge, the save payload and the reset.
- **The chat page** (`MessagingPage`): the trim-and-refuse send, the
  append-only receive, and the typing indicator.
- **The dialpad** (`Dialpad`): the digit buffer and the call/hang-up button.
- **The agent-management page** (`AgentManagement`): the search filter, the
  status badge, and the create and edit forms.
- **The client route guard** (`AppRoutes`), including redirects followed to
  their end.
- **The bearer-token middleware and the admin gate** (`AuthMiddleware`).

Shared vocabulary sits in three modules:

- `Common`: optional values, replies, the outcome of an awaited database
  call, JavaScript truthiness, ASCII lower-casing, string search, and
  counting and filtering.
- `Sorting`: a stable sort by an integer key.
- `Models`: the User, Call and Message records.

Stateful code is modelled as classes whose methods change their fields:

- the softphone is `SipCall.Phone`, and a SIP session is a `SipCall.SipSession`
  object, compared by identity as in the hook;
- the socket server is `Relay.Server`;
- the user table is `AdminRoutes.UserStore`;
- the settings collection is `SettingsRoutes.SettingsCollection`;
- the chat page is `MessagingPage.ChatPage`.

The outcome of each I/O step the model covers is a parameter of the step:
token verification, the clock, the fetched responses, and how each awaited
database call settles. A `Settled` parameter either resolves or rejects with
an error.
- The write routes (create, update, password reset, the presence sync) and
  the three settings routes model the rejection: the `catch` block answers
  500 with the error's message.
- The history query run when an agent connects has no rejection handler, so
  a rejection sends nothing.
- The relay's status and message writes take a success flag.
- The read-only statistics routes take the query results as inputs, so their
  500 branch is listed under "Left out".

Each socket or HTTP handler runs as one atomic step. Emits and AMI actions
are appended to logs that the contracts describe.

## Model

| member | source | states |
|---|---|---|
| SipCall.Phone.constructor | Frontend/src/hooks/useSIP.js:34-51 | A user agent exists exactly when the name, password and server address are non-empty and the SIP URI is valid. All slots start empty, the status is `idle`, and both flags are false. |
| SipCall.Phone.HandleIncomingCall | Frontend/src/hooks/useSIP.js:112-118 | The invitation always becomes the incoming session. The status changes to `incoming` only when no session is active; during a call it is left as it was (call waiting). |
| SipCall.Phone.HandleSessionTermination | Frontend/src/hooks/useSIP.js:133-169 | Resuming a held call: the un-hold re-INVITE goes to the held session. On success the held call becomes the active `connected` call, the held slot empties and the hold flag clears. On failure both slots empty, the status is `ended` and an idle timer is scheduled. With nothing held, the slot empties, the status is `ended`, both flags reset and a timer is scheduled. |
| SipCall.Phone.SessionStateChanged | Frontend/src/hooks/useSIP.js:208-225 | The listener of an outbound session reports `calling` and `connected`. For a session that terminates, cleanup runs only when it is the active one. An inbound session that terminates leaves the incoming slot only if it still occupies it (the inbound listener at lines 120-130). Every other state change leaves the phone unchanged. |
| SipCall.Phone.AnswerCall | Frontend/src/hooks/useSIP.js:171-195 | With no incoming session nothing changes. Otherwise an active call is sent a hold and moves to the held slot, and the hold flag resets for the new call. A successful accept makes the incoming session the active `connected` call; a failed accept changes neither the active slot nor the status. |
| SipCall.Phone.MakeCall | Frontend/src/hooks/useSIP.js:197-230 | Nothing happens without a user agent or with an invalid target URI. Otherwise a fresh outbound session to `sip:<target>@<server>` becomes the active session. |
| SipCall.Phone.Hangup | Frontend/src/hooks/useSIP.js:232-248 | Sends BYE on an established session and CANCEL on an establishing one, and rejects an incoming session that is still live. It clears the incoming slot and the mute flag. Without a BYE it clears the active slot, shows `idle`, clears the hold flag and keeps the held session. A BYE terminates the session at once, so its listener's cleanup (lines 126-127 and 218-220, then 133-169) runs as well. With nothing held, `idle` shows and the idle timer is scheduled. A held call whose un-hold succeeds becomes the active `connected` call. If the un-hold fails, the phone shows `ended` and schedules the timer. An answered call ended by the BYE is not rejected. |
| SipCall.HangupResumesHeldScenario | Frontend/src/hooks/useSIP.js:133-248 | While one call is held, hanging up the answered second call resumes the held call as the connected call, and rejects nothing. |
| SipCall.Phone.ToggleMute | Frontend/src/hooks/useSIP.js:250-263 | The mute flag flips only when there is an active session with a media connection. |
| SipCall.Phone.ToggleHold | Frontend/src/hooks/useSIP.js:265-279 | Nothing is sent unless the active session is established. The re-INVITE asks for the opposite of the current hold flag, and the flag flips only when that re-INVITE succeeds. |
| SipCall.Phone.SendDtmf | Frontend/src/hooks/useSIP.js:281-285 | A tone is sent exactly when the active session is established. |
| SipCall.Phone.IdleTimerFires | Frontend/src/hooks/useSIP.js:167 | The 2-second timer sets `idle` unconditionally and is consumed. |
| SipCall.Phone.IdleTimerFiresCorrected | Frontend/src/hooks/useSIP.js:159-167 | The corrected timer sets `idle` only while the phone still shows `ended`; any other status is kept. |
| SipCall.CallWaitingScenario | Frontend/src/hooks/useSIP.js:133-195 | The first call (from 1002) is answered, and a second call arrives and is answered while the first is active. The first call is then in the held slot. When the second call ends, the first call is the active `connected` call again. |
| SipCall.EndedThenIdleScenario | Frontend/src/hooks/useSIP.js:161-167 | An outbound call that ends with nothing held shows `ended`, then `idle` once its timer fires. |
| SipCall.StaleIdleTimerScenario | Frontend/src/hooks/useSIP.js:167 | As written, a call answered within two seconds of the previous one ending is shown as `idle` while it is the active call. |
| SipCall.StaleIdleTimerScenarioCorrected | Frontend/src/hooks/useSIP.js:159-167 | With the corrected timer, the same sequence keeps the answered call `connected`. |
| Relay.MatchAt | Backend/server.js:56 | A match at a position is a non-empty run of digits that occurs there between `sip:` and `@`. |
| Relay.MatchAtComplete | Backend/server.js:56 | Every occurrence of `sip:<digits>@` is a match of the expression, with exactly those digits (the quantifier is greedy). |
| Relay.FirstMatch | Backend/server.js:56 | The search reports a match found at or after the start position, or no match anywhere from there. |
| Relay.ExtractExtension | Backend/server.js:56-57 | An absent address stays absent. An address without a `sip:<digits>@` comes back unchanged. An address whose leftmost match is at position `i` yields exactly the digits matched there. |
| Relay.ExtractFromSipUri | Backend/server.js:56-57 | `sip:<digits>@host` yields exactly the digits. |
| Relay.ExtractFromNamedUri | Backend/server.js:56-57 | A URI behind a display name still yields its digits, provided the text before it contains no `s`. |
| Relay.ExtractFromBareExtension | Backend/server.js:56-57 | A bare extension comes back unchanged. |
| Models.CreateMessage | Backend/models/Message.js:3-12 | A record is created exactly when `from`, `to` and `message` are all present and non-empty. It keeps those fields and the timestamp, starts unread and unedited, and its source defaults to `web`. |
| Relay.SipDraft | Backend/server.js:62-68 | The telephony record has the extracted `from` and `to`, the body as its message, and `sip` as its source. |
| Relay.ChannelDraft | Backend/server.js:109-114 | The channel record's sender is the connection's agent, whatever the client sent. The source is left to its default. |
| Relay.History | Backend/server.js:99-103 | The history is sorted by ascending timestamp and is a permutation of the agent's messages. |
| Relay.HistoryMembers | Backend/server.js:99-103 | A message is in an agent's history exactly when it is stored and the agent sent or received it. |
| Relay.Server.OnManagerEvent | Backend/server.js:49-75 | Every manager event is broadcast. A saved `MessageEntry` is appended with source `sip` and sent only to the recipient's room; an unsaved one adds nothing else. Message ids stay fresh. |
| Relay.Server.Connect | Backend/server.js:78-103 | A connection without an agent id is ignored: it joins no room and nothing is emitted. Otherwise it joins the agent's room. When the history query resolves, the socket is sent the agent's history; a rejected query sends nothing and the connection stays registered. |
| Relay.Server.UpdateStatus | Backend/server.js:86-96 | The agent's stored status is written first, then `{username, status}` is broadcast to all. An unknown connection or a failed write changes and emits nothing. |
| Relay.Server.SendMessage | Backend/server.js:106-136 | The record is stored with the connection's agent as sender. The same record goes to the recipient's room and back to the sender. A `MessageSend` to `pjsip:<to>` is issued only when `AMI_HOST` is set. A record that cannot be saved is neither emitted nor relayed. |
| Relay.Server.Disconnect | Backend/server.js:138-143 | Only the connection is dropped: statuses, messages and the event log are unchanged. |
| Relay.AnonymousClientScenario | Backend/server.js:78-136 | A client without an agent id stores, emits and changes nothing. A registered agent's message is stored from that agent with source `web` and relayed to `pjsip:1002`. |
| Sorting.SortBy | Backend/routes/adminRoutes.js:357 | The result is ordered by the key and is a permutation of the input. |
| Sorting.SortByStable | Backend/routes/adminRoutes.js:357 | The sort is stable: the elements with any one key keep their input order. |
| AdminRoutes.GetStats | Backend/routes/adminRoutes.js:135-157 | `totalAgents` counts the agents, and `onlineAgents` counts agents that are available, busy or away. Online plus offline equals the total, offline is never negative, and `activeCalls` counts in-progress calls. |
| AdminRoutes.Detail | Backend/routes/adminRoutes.js:286-291 | The entry copies the user's id, username, status and role. `lastSeen` is the current time, `loginTime` is the creation time, and `isActive` holds exactly for available and busy. |
| AdminRoutes.AgentsOnline | Backend/routes/adminRoutes.js:277-299 | The list holds exactly the agents whose status is available, busy or away, one entry each. `isActive` holds exactly for available or busy, so an active agent is online. |
| AdminRoutes.AgentsOnlineKeepsOrder | Backend/routes/adminRoutes.js:280-293 | The list keeps directory order: listing a concatenation is concatenating the lists. |
| AdminRoutes.TestDb | Backend/routes/adminRoutes.js:419-450 | Both counts are the number of agents that are available, busy or away, the figure the statistics route reports, so `match` is true; neither exceeds the number of agents. |
| AdminRoutes.RecentActivity | Backend/routes/adminRoutes.js:302-363 | The feed is sorted newest first and holds at most ten entries, drawn from the collected activities. No dropped activity is newer than a kept one. |
| AdminRoutes.KeptAndDropped | Backend/routes/adminRoutes.js:357-359 | Cutting a newest-first list keeps a newest-first prefix, and no entry cut off is newer than a kept one. |
| AdminRoutes.NewAgent | Backend/routes/adminRoutes.js:56-63 | A created agent has role `agent`, status `offline` and the hashed password. Email and extension default to empty. |
| AdminRoutes.ApplyUpdate | Backend/routes/adminRoutes.js:92-102 | Username and status change only when supplied and non-empty; email and extension change whenever supplied, even empty. The password is re-hashed only when supplied and non-empty. Nothing else changes. |
| AdminRoutes.EmptyUpdateIsIdentity | Backend/routes/adminRoutes.js:92-102 | An update that supplies nothing leaves the agent as it was. |
| AdminRoutes.IndexOfId | Backend/routes/adminRoutes.js:87 | The lookup finds a user with the id, or there is none. |
| AdminRoutes.SyncAll | Backend/routes/adminRoutes.js:462-477 | The reconciled directory has the same length and reconciles each user on its own. |
| AdminRoutes.UserStore.CreateAgent | Backend/routes/adminRoutes.js:37-80 | A missing username or password gives 400 "Username and password are required". A rejected lookup gives 500 with its message, and an existing username gives 400 "Username already exists". A rejected insert gives 500 with its message. All of these leave the table unchanged. Otherwise the new agent is appended and 201 is returned with a summary that has no password. Usernames and ids stay unique. |
| AdminRoutes.UserStore.UpdateAgent | Backend/routes/adminRoutes.js:83-117 | A rejected lookup (a malformed id among them) gives 500 with its message. A missing id or a non-agent gives 404 "Agent not found". An update that would store a status outside the enumeration, or a username taken by another user, fails with 500. A rejected save gives 500 with its message. None of these writes anything. Otherwise exactly that agent is replaced by its update. |
| AdminRoutes.UserStore.ResetPassword | Backend/routes/adminRoutes.js:253-274 | A missing password, or one shorter than six characters, gives 400 before any lookup. A rejected lookup gives 500, then 404 as for an update, 500 when the stored status fails validation, and 500 for a rejected save; none of these writes anything. Otherwise only that agent's password hash changes. |
| AdminRoutes.UserStore.SyncAgentStatus | Backend/routes/adminRoutes.js:453-486 | A rejected load gives 500 and changes nothing. If every write succeeds, the table equals the reconciled directory and `syncedCount` is the number of users the reconciliation changes. If the write for user `k` is the first to fail, the users before `k` are reconciled, the rest are untouched, and the reply is 500 with that write's message. |
| AdminRoutes.Reconcile | Backend/routes/adminRoutes.js:462-477 | The loop over the directory: with no failed write it yields the reconciled directory and the number of changed users; at the first failed write it stops with the users before it reconciled and a 500 reply. |
| AdminRoutes.FirstFailedWrite | Backend/routes/adminRoutes.js:468-475 | The index of the first user whose reconciliation needs a write that rejects, or none when no such write fails. |
| AdminRoutes.PartialSync | Backend/routes/adminRoutes.js:462-477 | The directory after the loop stopped at `k`: the users before `k` are reconciled, the rest are as they were, and no username or id changes. |
| AdminRoutes.RetryAfterFailedSync | Backend/routes/adminRoutes.js:453-486 | Running the sync again after a partial one gives the same directory as one complete sync. |
| AdminRoutes.SyncOne | Backend/routes/adminRoutes.js:463-476 | Only the status can change, and only for an agent. Afterwards an agent is online exactly when it is connected, and an agent whose status already agrees is left alone. |
| AdminRoutes.SyncOnlineIffConnected | Backend/routes/adminRoutes.js:462-477 | After a sync an agent is online exactly when its username is connected. Other users, and every field but the status, are untouched. |
| AdminRoutes.NeedsSyncExactly | Backend/routes/adminRoutes.js:465-476 | A user is changed exactly when it is an agent whose online test disagrees with its connection. |
| AdminRoutes.SyncIdempotent | Backend/routes/adminRoutes.js:457-477 | A second sync changes nothing and reports zero. |
| AdminRoutes.SyncWithNoConnections | Backend/routes/adminRoutes.js:460 | With no connected-agent list, every online agent is set offline, and the count equals the number of online agents. |
| CallRoutes.QueueLength | Backend/routes/callRoutes.js:32 | The queue is never negative, is either zero or the excess of active calls over online agents, and is zero exactly when the agents cover the calls. |
| CallRoutes.GetStats | Backend/routes/callRoutes.js:11-48 | Active calls are the in-progress calls. Online agents are those available or busy, with away excluded. `resolvedToday` never exceeds `callsToday`. The queue comes from the two counts, and the average wait is the constant `2:45`. |
| CallRoutes.OnlineCountsCompared | Backend/routes/callRoutes.js:23 | The dashboard's online count never exceeds the admin statistics' count. The two are equal exactly when no agent is away. |
| SettingsRoutes.Defaults | Backend/routes/settingsRoutes.js:21-69 | The defaults cover exactly the six valid categories, each an object. |
| SettingsRoutes.Lookup | Backend/routes/settingsRoutes.js:130 | The lookup finds the settings of a document of that category, or there is none. |
| SettingsRoutes.LookupUnique | Backend/routes/settingsRoutes.js:130 | With one document per category, the lookup returns that document's settings. |
| SettingsRoutes.UpsertShape | Backend/routes/settingsRoutes.js:94-103 | The document of the category is replaced in place, or appended when there is none; every other document stays where it was, and there is still one document per category. |
| SettingsRoutes.UpsertFacts | Backend/routes/settingsRoutes.js:94-103 | The upsert keeps one document per category. Afterwards the lookup finds the new settings, and every other category's lookup is unchanged. |
| SettingsRoutes.SettingsCollection.GetAll | Backend/routes/settingsRoutes.js:10-78 | A rejected query gives 500 with its message. Otherwise the result has exactly the default categories. A saved category replaces its default wholesale, and an unsaved one keeps its default. |
| SettingsRoutes.SettingsCollection.Put | Backend/routes/settingsRoutes.js:81-124 | A user who is not an admin is refused by the route's `adminOnly` gate with 403 "Admin access required". An invalid category gives 400 "Invalid settings category", and a rejected upsert gives 500 with its message. None of these writes or broadcasts anything. Otherwise the category's stored settings equal those submitted, its document records the token's username as the updater (absent when the token carries none), and every other category is unchanged. The same category and settings are broadcast when a socket server is registered. |
| SettingsRoutes.SettingsCollection.GetCategory | Backend/routes/settingsRoutes.js:127-140 | A rejected query gives 500 with its message. A category without a document gives 404 "Settings not found"; otherwise the reply is its stored settings. |
| SettingsRoutes.FirstIndexIsLookup | Backend/routes/settingsRoutes.js:94-103 | The document the upsert finds is the one the lookup reads. |
| SettingsRoutes.PutThenGet | Backend/routes/settingsRoutes.js:94-136 | After a PUT of a valid category, the lookup route returns exactly the submitted settings. |
| SettingsPage.SpreadFields | Frontend/src/pages/admin/Settings.jsx:98 | `...(v \|\| {})` copies the fields of an object and nothing from anything else. |
| SettingsPage.UpdateSetting | Frontend/src/pages/admin/Settings.jsx:169-177 | The category becomes an object with the new value under the key; its other keys, every other category and the rest of the page are unchanged. |
| SettingsPage.Patch | Frontend/src/pages/admin/Settings.jsx:95-101 | The patch's keys take the patch's values. The category's other keys keep theirs, and every other category is unchanged. |
| SettingsPage.OnSettingsUpdated | Frontend/src/pages/admin/Settings.jsx:92-107 | An event without a category or settings leaves the page unchanged. Otherwise the category is patched and the saved notice shows. |
| SettingsPage.FetchMerge | Frontend/src/pages/admin/Settings.jsx:119-136 | On success, the categories in the response replace the page's wholesale and the others are kept. On failure the settings are unchanged. Loading ends either way. |
| SettingsPage.SavePayload | Frontend/src/pages/admin/Settings.jsx:144-146 | A save sends the active tab's category with exactly that category's settings. |
| SettingsPage.SaveOutcome | Frontend/src/pages/admin/Settings.jsx:150-152 | A completed save leaves the settings untouched, and a successful one shows the notice. |
| SettingsPage.OwnBroadcastIsIdempotent | Frontend/src/pages/admin/Settings.jsx:92-107 | The page's own save, coming back as a broadcast, changes no setting. |
| SettingsPage.EmptyPatchNormalises | Frontend/src/pages/admin/Settings.jsx:95-101 | An empty patch keeps an object category as it is and turns a missing category into an empty object. |
| SettingsPage.ResetAfterSave | Frontend/src/pages/admin/Settings.jsx:164-167 | A reset after a save re-fetches, and the saved category arrives exactly as it was submitted. |
| MessagingPage.Trim | Frontend/src/pages/Messaging.jsx:71 | The trimmed text is the part between the leading and the trailing white space. It neither starts nor ends with white space, and it is empty exactly when the text is all white space. |
| MessagingPage.TrimIdempotent | Frontend/src/pages/Messaging.jsx:71 | Trimming twice is trimming once. |
| MessagingPage.AgentIdOf | Frontend/src/pages/Messaging.jsx:17 | The stored username, or `Guest` when none is stored; never empty. |
| MessagingPage.ChatPage.constructor | Frontend/src/pages/Messaging.jsx:14-17 | The page starts with no messages, an empty input and no typing indicator. |
| MessagingPage.ChatPage.SetNewMessage | Frontend/src/pages/Messaging.jsx:187 | The input holds the typed text. |
| MessagingPage.ChatPage.HandleSend | Frontend/src/pages/Messaging.jsx:70-84 | Text that trims to nothing sends nothing and keeps the input. Otherwise exactly one payload is emitted, from this agent to 1002 with the trimmed text, and the input is cleared. |
| MessagingPage.ChatPage.HandleKeyDown | Frontend/src/pages/Messaging.jsx:86-91 | Enter without Shift sends as `handleSend` does: blank text changes nothing, and other text emits the trimmed payload and clears the input. Any other key changes nothing. |
| MessagingPage.ChatPage.ReceiveMessage | Frontend/src/pages/Messaging.jsx:50-52 | The message is appended at the end, and the earlier ones keep their order. |
| MessagingPage.ChatPage.LoadHistory | Frontend/src/pages/Messaging.jsx:35-42 | A loaded history replaces the messages, and a failed load keeps them. |
| MessagingPage.ChatPage.OnTyping | Frontend/src/pages/Messaging.jsx:55-57 | Only another agent's typing raises the indicator. |
| MessagingPage.ChatPage.OnStopTyping | Frontend/src/pages/Messaging.jsx:59 | The indicator is cleared. |
| MessagingPage.SentPayloadIsStorable | Frontend/src/pages/Messaging.jsx:74-81 | What the page sends is always storable as a channel message from the agent to 1002 with exactly the trimmed text. |
| Dialpad.DialKeysAreDialChars | Frontend/src/components/Dialpad.jsx:21 | The grid has twelve keys, each a single dial character. |
| Dialpad.EveryDialCharHasKey | Frontend/src/components/Dialpad.jsx:21 | Every digit, `*` and `#` has its key. |
| Dialpad.HandleDigit | Frontend/src/components/Dialpad.jsx:9-11 | The number is the previous number followed by exactly the digit. |
| Dialpad.HandleDelete | Frontend/src/components/Dialpad.jsx:13-15 | The last character is removed, and an empty number stays empty. |
| Dialpad.DeleteUndoesKey | Frontend/src/components/Dialpad.jsx:9-15 | A delete undoes a key press. |
| Dialpad.EditKeepsDialable | Frontend/src/components/Dialpad.jsx:9-21 | A key press or a delete keeps the number made of dial characters. |
| Dialpad.TypedIsDialable | Frontend/src/components/Dialpad.jsx:9-21 | Any sequence of key presses yields one dial character per press and nothing else. |
| Dialpad.HandleCall | Frontend/src/components/Dialpad.jsx:17-19 | The number is dialled, unchanged, exactly when it is not empty. |
| Dialpad.ButtonFor | Frontend/src/components/Dialpad.jsx:58 | The call button shows exactly when the status is `idle` or `ended`. |
| Dialpad.PressAction | Frontend/src/components/Dialpad.jsx:58-77 | The call button dials, and nothing happens for an empty number. The hang-up button asks to hang up. A dial happens only from `idle` or `ended`. |
| Common.ToLower | Frontend/src/pages/admin/AgentManagement.jsx:142 | Lower-casing keeps the length and maps each character; ASCII letters only. |
| Common.ToLowerIdempotent | Frontend/src/pages/admin/AgentManagement.jsx:142 | Lower-casing twice is lower-casing once. |
| AgentManagement.FilteredAgents | Frontend/src/pages/admin/AgentManagement.jsx:141-143 | The result holds exactly the agents whose lower-cased username contains the lower-cased query. |
| AgentManagement.FilterKeepsOrder | Frontend/src/pages/admin/AgentManagement.jsx:141-143 | The filter keeps the original order, because it distributes over concatenation. |
| AgentManagement.EmptyQueryKeepsAll | Frontend/src/pages/admin/AgentManagement.jsx:141-143 | An empty search keeps every agent. |
| AgentManagement.GetStatusBadge | Frontend/src/pages/admin/AgentManagement.jsx:145-153 | Available, busy and away have their own badges; every other value gets the Offline badge. |
| AgentManagement.BadgeAgreesWithAdminOnline | Frontend/src/pages/admin/AgentManagement.jsx:145-153 | The badge reads Offline exactly when the admin statistics count the agent as offline. |
| AgentManagement.OpenCreateModal | Frontend/src/pages/admin/AgentManagement.jsx:120-126 | No agent is being edited, all four fields are empty, and the messages are cleared. |
| AgentManagement.OpenEditModal | Frontend/src/pages/admin/AgentManagement.jsx:128-139 | The form copies the agent's username, email and extension, and the password starts empty. |
| AgentManagement.UpdateRequestOf | Frontend/src/pages/admin/AgentManagement.jsx:64 | The edit form is sent whole. The update never changes the status, always writes the form's email and extension, keeps the password hash when the password is empty, and writes a non-empty username. |
| AgentManagement.CreateRequestOf | Frontend/src/pages/admin/AgentManagement.jsx:68 | The create form is sent whole. The route's required-field check passes exactly when username and password are filled in, and the agent it creates has the form's username, email and extension. |
| AgentManagement.UntouchedEditIsIdentity | Frontend/src/pages/admin/AgentManagement.jsx:128-139 | Saving the edit form untouched leaves the agent unchanged on the server. |
| AgentManagement.UntouchedCreateIsRefused | Frontend/src/pages/admin/AgentManagement.jsx:120-126 | Submitting the create form untouched lacks both required fields. |
| AppRoutes.ProtectedRoute | Frontend/src/App.jsx:25-39 | No token goes to `/login`. A role that is not allowed goes to `/admin/dashboard` for admin and to `/dashboard` for any other role. Otherwise the children render. |
| AppRoutes.ProtectedRouteCorrected | Frontend/src/App.jsx:33-36 | Admin and agent are guarded as written. Any other role goes to `/login` instead, and it renders exactly when the original renders. |
| AppRoutes.StripTrailingSlashesSpec | Frontend/src/App.jsx:42-77 | Stripping keeps a prefix that does not end in a slash and drops only slashes. |
| AppRoutes.Visit | Frontend/src/App.jsx:42-77 | A path is matched by its key: lower-cased ASCII letters, trailing slashes removed. The login page shows exactly for the key `/login`. An agent or admin page is named by the route its key matched. `/` and every key outside the route table redirect to `/login`. |
| AppRoutes.RoutePathsAreKeys | Frontend/src/App.jsx:42-73 | Every route path, spelled as in the table, is its own key. |
| AppRoutes.VisitIgnoresCaseAndTrailingSlash | Frontend/src/App.jsx:42-77 | A trailing slash or a change in the case of ASCII letters leads where the plain path leads. |
| AppRoutes.NoTokenShowsLogin | Frontend/src/App.jsx:29-31 | Without a token every path ends on the login page. |
| AppRoutes.AgentNavigation | Frontend/src/App.jsx:46-60 | An agent sees the agent pages, and an admin path takes it to the agent dashboard. |
| AppRoutes.AdminNavigation | Frontend/src/App.jsx:62-73 | An admin sees the admin pages, and an agent path takes it to the admin dashboard. |
| AppRoutes.UnknownRoleRedirectLoop | Frontend/src/App.jsx:33-36 | As written, a token whose role is neither admin nor agent never reaches a page from a protected path, however many redirects are followed. |
| AppRoutes.LoginThenMessagingNeverSettles | Frontend/src/pages/Login.jsx:15-19 | After login (a token, no role) `/messaging` reaches no page, however many redirects are followed. |
| AppRoutes.CorrectedGuardAlwaysSettles | Frontend/src/App.jsx:25-77 | With the corrected guard every path reaches a page within two redirects. |
| AppRoutes.RedirectTargetShows | Frontend/src/App.jsx:25-77 | Wherever the corrected guard redirects, a page is shown. |
| AuthMiddleware.ExtractToken | Backend/middleware/authMiddleware.js:10-12 | A `Bearer ` header yields the rest after the prefix; any other header is the token unchanged. |
| AuthMiddleware.BearerRoundTrip | Backend/middleware/authMiddleware.js:10-12 | Prefixing a token and extracting it gives the token back, and only one prefix is removed. |
| AuthMiddleware.Authenticate | Backend/middleware/authMiddleware.js:4-21 | A missing or empty header gives 401 "No token provided", and a token that fails verification gives 401 "Invalid token". Otherwise the request goes on with the decoded claims. |
| AuthMiddleware.AdminOnly | Backend/middleware/authMiddleware.js:24-29 | The request goes on exactly when the user's role is admin; otherwise the reply is 403 "Admin access required". |
| AuthMiddleware.AuthenticateThenAdmin | Backend/routes/adminRoutes.js:10-11 | The two guards in sequence: a request goes on only with the authenticated claims of an admin, and a refusal is a 401 or 403 "Admin access required". |
| AuthMiddleware.AdminRouteAccess | Backend/middleware/authMiddleware.js:4-29 | An admin route is reached exactly with a header whose token verifies to admin claims. A 403 only follows a successful authentication. |

## Left out

- The sip.js transport is not modelled. That covers user-agent start, registration, URI parsing (its outcome is a parameter), media wiring and the audio-track toggling; these are calls into a foreign library.
- The AMI connection and the actual `MessageSend` transport are not modelled; the model only logs the actions issued.
- The admin health check (`system-status`) and `performance-metrics` are not modelled. They do network probes, read process memory and call `Math.random`.
- `Backend/services/asteriskService.js` is not part of this model: it runs SSH commands. So the extension creation after an agent is created is not modelled either.
- `Backend/routes/authRoutes.js` and `Backend/routes/messageRoutes.js` are not part of this model. The first wraps bcrypt, JWT and the database. The second refers to names it never defines, so it cannot run as written.
- The call routes `GET /recent` and `POST /` are not modelled, nor the admin routes that list, read and delete agents. They are plain database reads and writes.
- Password hashing and token signing are not modelled: a hash is the symbolic `Hashed(password)`, and token verification is a function parameter.
- Floating-point numbers inside settings are not modelled: a JSON number is an integer here.
- Concurrency is not modelled. Every handler and promise continuation is one atomic step, and the interleaving of socket events is not explored.
- SipCall.Phone.IdleTimerFires: time is not modelled. A scheduled 2-second timer is a counter, and it fires when the caller takes the step.
- SettingsPage.OnSettingsUpdated: the saved notice's 3-second reset is not modelled.
- SettingsPage.SpreadFields: spreading a string or an array (which copies its indices) is not modelled; such a value contributes no keys here.
- Common.ToLower: only ASCII letters are lower-cased, so Unicode case folding is not captured.
- AgentManagement.GetStatusBadge: a status that names a property of `Object.prototype` (such as `constructor`) would find that property instead of the fallback. The model always falls back.
- AdminRoutes.UserStore.ResetPassword: the length check counts characters, not UTF-16 code units.
- AdminRoutes.UserStore.UpdateAgent: `null` and an absent field are not told apart in a request body. A supplied `null` email or extension, which the route would store, is treated as absent.
- AdminRoutes.UserStore.UpdateAgent: the 500 error message, which is the database's validation text, is not modelled; only the code is.
- AdminRoutes.RecentActivity: the three database queries are not modelled; the newest five of each collection are inputs, so a rejected query, which the route answers with 500, is not modelled either. The feed's order among activities with equal timestamps is not stated.
- Relay.Server.Connect: the Socket.IO room membership is not modelled. A room is addressed by the agent id in the event log.
- MessagingPage.ChatPage.LoadHistory: the history request goes through the message routes, which are not part of this model. Only the outcome is modelled.
- The server never registers `io` or `connectedAgents` on the app, and it never mounts the settings routes. The model therefore takes the registration as a parameter (`ioConfigured`), and `SyncWithNoConnections` states what the sync route does with the empty list it actually sees.
- The chat page connects its socket without an `agentId`, so on the server its connection is ignored (`AnonymousClientScenario`). The model keeps the page and the server separate and does not connect them.
- Rendering and layout components are not modelled.
- AppRoutes.Visit: the router's percent-decoding of the location and its dynamic and splat segments are not modelled; the route table has neither, and a path is compared as it is given.
- AdminRoutes.GetStats: a rejected query, which the route answers with 500, is not modelled, because the query results are inputs of the model.
- AdminRoutes.AgentsOnline: a rejected query, which the route answers with 500, is not modelled, because the query results are inputs of the model.
- AdminRoutes.TestDb: a rejected query, which the route answers with 500, is not modelled, because the query results are inputs of the model.
- CallRoutes.GetStats: a rejected query, which the route answers with 500, is not modelled, because the query results are inputs of the model.
- AdminRoutes.UserStore.CreateAgent: a rejected bcrypt hash, which the route also answers with 500, is not modelled; hashing is symbolic and always succeeds.
- AdminRoutes.UserStore.ResetPassword: a rejected bcrypt hash is not modelled either, for the same reason.
- SipCall.Phone.Hangup: that a BYE moves the session to terminated at once, and so runs its listener inside `hangup`, is the SIP library's behaviour. The library is not part of this model. The later `terminated` event of a cancelled or rejected session goes through `SessionStateChanged`, which finds its slots already cleared.
- SettingsRoutes.SettingsCollection.Put: a request body without a `settings` field cannot be expressed; the route would upsert with the field undefined, and what the database then stores depends on the Mongoose version.

## Findings

| source | as written | input that shows it | evidently intended | confidence | as-written member | corrected member |
|---|---|---|---|---|---|---|
| Frontend/src/App.jsx:33-36 | A token whose role is not allowed is sent to `/dashboard` unless the role is `admin`, and that includes a missing or unknown role. `/dashboard` itself only admits `agent`, so it redirects to itself. | Every ordinary login: Frontend/src/pages/Login.jsx:15-19 stores the token and the username but never a role, then opens `/messaging`. The guard redirects to `/dashboard`, which redirects to `/dashboard` again, forever. | A role with no dashboard of its own is sent to the login page. Storing the role at login is an equally plausible intended fix; it makes the agent and admin guards apply as written. | medium; not executed | AppRoutes.LoginThenMessagingNeverSettles | AppRoutes.LoginThenMessagingNeverSettles | Frontend/src/pages/Login.jsx:15-19 | After login (a token, no role) `/messaging` reaches no page, however many redirects are followed. |
| AppRoutes.CorrectedGuardAlwaysSettles |
| Frontend/src/hooks/useSIP.js:167 | When a call ends, a 2-second timer sets the status to `idle` unconditionally. | A call ends (status `ended`, timer scheduled), and an incoming call is answered within two seconds. The timer fires and shows `idle` while the answered call is active, which also turns the dialpad's hang-up button back into a call button. | The timer resets only a status that is still `ended`. | medium; not executed | SipCall.StaleIdleTimerScenario | SipCall.StaleIdleTimerScenarioCorrected |

=== FILE: admin_routes.dfy ===
/** The admin routes over the agent directory: statistics, the online-agent
    list, the consistency probe, recent activity, agent creation, update and
    password reset, and the presence reconciliation (`sync-agent-status`).

    The User collection is the class `UserStore`; the queries that only read
    it are functions of its sequence of users. Password hashing is the
    symbolic `Hashed` of `Models`. */
module AdminRoutes {
  import opened Common
  import opened Models
  import Sorting

  /** The online test of these routes: available, busy or away. */
  predicate IsOnline(status: string) {
    status == Available || status == Busy || status == Away
  }

  /** `isActive` of the online-agent list: available or busy. */
  predicate IsActive(status: string) {
    status == Available || status == Busy
  }

  predicate IsOnlineAgent(u: User) {
    IsAgent(u) && IsOnline(u.status)
  }

  // ---------------------------------------------------------------------
  // GET /stats
  // ---------------------------------------------------------------------

  datatype Stats = Stats(totalAgents: nat, onlineAgents: nat, offlineAgents: int, activeCalls: nat)

  /** Agents are counted from the agent list; online ones with the
      three-status test; offline is the difference. */
  function GetStats(users: seq<User>, calls: seq<Call>): (r: Stats)
    ensures r.totalAgents == Count(users, IsAgent)
    ensures r.onlineAgents == Count(users, IsOnlineAgent)
    ensures r.onlineAgents + r.offlineAgents == r.totalAgents
    ensures 0 <= r.offlineAgents <= r.totalAgents
    ensures r.activeCalls == Count(calls, (c: Call) => c.status == InProgress)
  {
    var allAgents := Filter(users, IsAgent);
    var online := Count(allAgents, (u: User) => IsOnline(u.status));
    CountOfFilter(users, IsAgent, (u: User) => IsOnline(u.status), IsOnlineAgent);
    Stats(|allAgents|, online, |allAgents| - online, Count(calls, (c: Call) => c.status == InProgress))
  }

  // ---------------------------------------------------------------------
  // GET /agents-online
  // ---------------------------------------------------------------------

  /** An online agent as listed: the user without its password, plus the
      detail fields. */
  datatype OnlineAgent = OnlineAgent(
    id: nat, username: string, email: string, extension: string, status: string, role: Role,
    createdAt: int, lastSeen: int, loginTime: int, isActive: bool)

  function Detail(u: User, now: int): (a: OnlineAgent)
    ensures a.isActive == IsActive(u.status)
    ensures a.id == u.id && a.username == u.username && a.status == u.status && a.role == u.role
    ensures a.lastSeen == now && a.loginTime == a.createdAt == u.createdAt
  {
    OnlineAgent(u.id, u.username, u.email, u.extension, u.status, u.role, u.createdAt, now, u.createdAt,
                IsActive(u.status))
  }

  /** Exactly the agents with an online status, in directory order;
      `isActive` holds for available and busy ones only, so an active agent
      is always online. */
  function AgentsOnline(users: seq<User>, now: int): (r: seq<OnlineAgent>)
    ensures |r| == Count(users, IsOnlineAgent)
    ensures forall i :: 0 <= i < |r| ==>
      && (exists u :: u in users && IsOnlineAgent(u) && r[i] == Detail(u, now))
      && (r[i].isActive <==> r[i].status == Available || r[i].status == Busy)
      && (r[i].isActive ==> IsOnline(r[i].status))
    ensures forall u :: u in users && IsOnlineAgent(u) ==> Detail(u, now) in r
  {
    var online := Filter(users, IsOnlineAgent);
    var r := seq(|online|, i requires 0 <= i < |online| => Detail(online[i], now));
    assert forall u :: u in users && IsOnlineAgent(u) ==> Detail(u, now) in r by {
      forall u | u in users && IsOnlineAgent(u) ensures Detail(u, now) in r {
        var k :| 0 <= k < |users| && users[k] == u;
        var j :| 0 <= j < |online| && online[j] == u;
        assert r[j] == Detail(u, now);
      }
    }
    r
  }

  /** The list keeps directory order: it distributes over any split of the
      directory. */
  lemma AgentsOnlineKeepsOrder(a: seq<User>, b: seq<User>, now: int)
    ensures AgentsOnline(a + b, now) == AgentsOnline(a, now) + AgentsOnline(b, now)
  {
    FilterAppend(a, b, IsOnlineAgent);
    var fa, fb := Filter(a, IsOnlineAgent), Filter(b, IsOnlineAgent);
    var both := Filter(a + b, IsOnlineAgent);
    assert both == fa + fb;
    var r := AgentsOnline(a + b, now);
    assert |r| == |fa| + |fb|;
    forall i | 0 <= i < |r| ensures r[i] == (AgentsOnline(a, now) + AgentsOnline(b, now))[i] {
      if i < |fa| {
        assert both[i] == fa[i];
      } else {
        assert both[i] == fb[i - |fa|];
      }
    }
  }

  // ---------------------------------------------------------------------
  // GET /test-db
  // ---------------------------------------------------------------------

  datatype TestDbReport = TestDbReport(total: nat, onlineCount1: nat, onlineCount2: nat, matches: bool)

  /** The probe counts online agents twice, by filtering the agent list and
      by querying with the status condition; the two always agree. */
  function TestDb(users: seq<User>): (r: TestDbReport)
    ensures r.matches && r.onlineCount1 == r.onlineCount2
    ensures r.onlineCount1 <= r.total == Count(users, IsAgent)
    ensures r.onlineCount1 == Count(users, IsOnlineAgent) == GetStats(users, []).onlineAgents
  {
    var allAgents := Filter(users, IsAgent);
    var onlineQuery := Filter(users, IsOnlineAgent);
    var count1 := Count(allAgents, (u: User) => IsOnline(u.status));
    CountOfFilter(users, IsAgent, (u: User) => IsOnline(u.status), IsOnlineAgent);
    TestDbReport(|allAgents|, count1, |onlineQuery|, count1 == |onlineQuery|)
  }

  // ---------------------------------------------------------------------
  // GET /recent-activity
  // ---------------------------------------------------------------------

  datatype ActivityKind = MessageActivity | CallActivity | AgentActivity

  datatype Activity = Activity(kind: ActivityKind, description: string, timestamp: int, icon: string)

  function DirectionName(d: Direction): string {
    match d
    case Inbound => "inbound"
    case Outbound => "outbound"
  }

  function CallStatusName(s: CallStatus): string {
    match s
    case Completed => "completed"
    case InProgress => "in-progress"
    case Missed => "missed"
    case Voicemail => "voicemail"
  }

  function MessageActivityOf(m: Message): Activity {
    Activity(MessageActivity, "Message from " + m.from + " to " + m.to, m.timestamp, "message")
  }

  /** The separator between caller and agent. The route's text holds an
      arrow that was decoded as Windows-1252 and re-encoded, so what it
      sends is the three characters U+00E2 U+2020 U+2019 ("â†’"). */
  const CallArrow: string := "\U{E2}\U{2020}\U{2019}"

  function CallActivityOf(c: Call): Activity {
    Activity(CallActivity,
             DirectionName(c.direction) + " call: " + c.caller + " " + CallArrow + " " + c.agent
               + " (" + CallStatusName(c.status) + ")",
             c.timestamp, "phone")
  }

  function AgentActivityOf(u: User): Activity {
    Activity(AgentActivity, "Agent " + u.username + " status: " + u.status, u.createdAt, "user")
  }

  /** Every activity the route collects, in the order it pushes them. */
  function Activities(msgs: seq<Message>, calls: seq<Call>, agents: seq<User>): seq<Activity> {
    seq(|msgs|, i requires 0 <= i < |msgs| => MessageActivityOf(msgs[i]))
    + seq(|calls|, i requires 0 <= i < |calls| => CallActivityOf(calls[i]))
    + seq(|agents|, i requires 0 <= i < |agents| => AgentActivityOf(agents[i]))
  }

  ghost predicate NewestFirst(s: seq<Activity>) {
    forall i, j :: 0 <= i < j < |s| ==> s[i].timestamp >= s[j].timestamp
  }

  const ActivityLimit: nat := 10

  /** Collects activities from the recent messages, calls and agents (each
      already the newest five of its collection), sorts them newest first
      and keeps at most ten: the kept ones are drawn from the collected ones,
      and none that was dropped is newer than one that was kept. */
  method RecentActivity(msgs: seq<Message>, calls: seq<Call>, agents: seq<User>) returns (r: seq<Activity>)
    ensures var all := Activities(msgs, calls, agents);
      && |r| == (if |all| < ActivityLimit then |all| else ActivityLimit)
      && NewestFirst(r)
      && multiset(r) <= multiset(all)
      && forall x, y :: x in multiset(all) - multiset(r) && y in r ==> x.timestamp <= y.timestamp
  {
    var activities: seq<Activity> := [];
    var i := 0;
    while i < |msgs|
      invariant 0 <= i <= |msgs|
      invariant activities == seq(i, k requires 0 <= k < i => MessageActivityOf(msgs[k]))
    {
      assert seq(i + 1, k requires 0 <= k < i + 1 => MessageActivityOf(msgs[k]))
          == seq(i, k requires 0 <= k < i => MessageActivityOf(msgs[k])) + [MessageActivityOf(msgs[i])];
      activities := activities + [MessageActivityOf(msgs[i])];
      i := i + 1;
    }
    ghost var fromMessages := activities;
    i := 0;
    while i < |calls|
      invariant 0 <= i <= |calls|
      invariant activities == fromMessages + seq(i, k requires 0 <= k < i => CallActivityOf(calls[k]))
    {
      assert seq(i + 1, k requires 0 <= k < i + 1 => CallActivityOf(calls[k]))
          == seq(i, k requires 0 <= k < i => CallActivityOf(calls[k])) + [CallActivityOf(calls[i])];
      activities := activities + [CallActivityOf(calls[i])];
      i := i + 1;
    }
    ghost var fromCalls := activities;
    i := 0;
    while i < |agents|
      invariant 0 <= i <= |agents|
      invariant activities == fromCalls + seq(i, k requires 0 <= k < i => AgentActivityOf(agents[k]))
    {
      assert seq(i + 1, k requires 0 <= k < i + 1 => AgentActivityOf(agents[k]))
          == seq(i, k requires 0 <= k < i => AgentActivityOf(agents[k])) + [AgentActivityOf(agents[i])];
      activities := activities + [AgentActivityOf(agents[i])];
      i := i + 1;
    }
    assert activities == Activities(msgs, calls, agents);

    var newestFirst := (a: Activity) => -a.timestamp;
    var sorted := Sorting.SortBy(activities, newestFirst);
    var n := if |sorted| < ActivityLimit then |sorted| else ActivityLimit;
    r := sorted[..n];
    KeptAndDropped(activities, sorted, newestFirst, n);
  }

  /** Splitting a newest-first arrangement of `all` after `n` entries. */
  lemma KeptAndDropped(all: seq<Activity>, sorted: seq<Activity>, key: Activity -> int, n: nat)
    requires n <= |sorted| && multiset(sorted) == multiset(all)
    requires forall a :: key(a) == -a.timestamp
    requires Sorting.SortedBy(sorted, key)
    ensures NewestFirst(sorted[..n])
    ensures multiset(sorted[..n]) <= multiset(all)
    ensures forall x, y :: x in multiset(all) - multiset(sorted[..n]) && y in sorted[..n] ==>
      x.timestamp <= y.timestamp
  {
    assert sorted == sorted[..n] + sorted[n..];
    assert multiset(sorted) == multiset(sorted[..n]) + multiset(sorted[n..]);
    Sorting.SortedSplit(sorted, key, n);
    forall x, y | x in multiset(sorted) - multiset(sorted[..n]) && y in sorted[..n]
      ensures x.timestamp <= y.timestamp
    {
      assert x in multiset(sorted[n..]);
      assert x in sorted[n..];
      assert key(y) <= key(x);
    }
  }

  // ---------------------------------------------------------------------
  // The user table: create, update, reset password, sync
  // ---------------------------------------------------------------------

  /** What the create and update routes send back: never the password, and
      the status only after an update. */
  datatype AgentSummary = AgentSummary(id: nat, username: string, email: string, extension: string,
                                       status: Option<string>, role: Role)

  function CreatedSummary(u: User): AgentSummary {
    AgentSummary(u.id, u.username, u.email, u.extension, None, u.role)
  }

  function UpdatedSummary(u: User): AgentSummary {
    AgentSummary(u.id, u.username, u.email, u.extension, Some(u.status), u.role)
  }

  datatype CreateRequest = CreateRequest(
    username: Option<string>, password: Option<string>, email: Option<string>, extension: Option<string>)

  datatype UpdateRequest = UpdateRequest(
    username: Option<string>, password: Option<string>, email: Option<string>,
    extension: Option<string>, status: Option<string>)

  predicate UsernameTaken(users: seq<User>, name: string) {
    exists u :: u in users && u.username == name
  }

  /** The agent a valid create request stores. */
  function NewAgent(req: CreateRequest, id: nat, now: int): (u: User)
    requires Truthy(req.username) && Truthy(req.password)
    ensures u.role == Agent && u.status == Offline && u.id == id
    ensures u.username == req.username.value && u.password == Hashed(req.password.value)
    ensures u.email == OrEmpty(req.email) && u.extension == OrEmpty(req.extension)
  {
    User(id, req.username.value, Hashed(req.password.value), OrEmpty(req.email), OrEmpty(req.extension),
         Offline, Agent, now)
  }

  /** The field-by-field update: username and status when supplied and
      non-empty, email and extension whenever supplied (even empty), the
      password (hashed) when supplied and non-empty. Nothing else changes. */
  function ApplyUpdate(u: User, req: UpdateRequest): (r: User)
    ensures r.id == u.id && r.role == u.role && r.createdAt == u.createdAt
    ensures Truthy(req.username) ==> r.username == req.username.value
    ensures !Truthy(req.username) ==> r.username == u.username
    ensures req.email.Some? ==> r.email == req.email.value
    ensures req.email.None? ==> r.email == u.email
    ensures req.extension.Some? ==> r.extension == req.extension.value
    ensures req.extension.None? ==> r.extension == u.extension
    ensures Truthy(req.status) ==> r.status == req.status.value
    ensures !Truthy(req.status) ==> r.status == u.status
    ensures Truthy(req.password) ==> r.password == Hashed(req.password.value)
    ensures !Truthy(req.password) ==> r.password == u.password
  {
    var a := if Truthy(req.username) then u.(username := req.username.value) else u;
    var b := if req.email.Some? then a.(email := req.email.value) else a;
    var c := if req.extension.Some? then b.(extension := req.extension.value) else b;
    var d := if Truthy(req.status) then c.(status := req.status.value) else c;
    if Truthy(req.password) then d.(password := Hashed(req.password.value)) else d
  }

  /** An update that supplies nothing leaves the agent as it was. */
  lemma EmptyUpdateIsIdentity(u: User)
    ensures ApplyUpdate(u, UpdateRequest(None, None, None, None, None)) == u
  {
  }

  const MinPasswordLength: nat := 6

  /** The reset-password validation: a new password of at least six characters. */
  predicate AcceptableNewPassword(p: Option<string>) {
    Truthy(p) && |p.value| >= MinPasswordLength
  }

  /** Position of the user with the given id. */
  function IndexOfId(users: seq<User>, id: nat): (k: Option<nat>)
    ensures k.Some? ==> k.value < |users| && users[k.value].id == id
    ensures k.None? ==> forall i :: 0 <= i < |users| ==> users[i].id != id
  {
    if users == [] then None
    else if users[0].id == id then Some(0)
    else match IndexOfId(users[1..], id)
      case None => None
      case Some(k) => Some(k + 1)
  }

  /** Another user than the one at `k` already has the name. */
  predicate NameClash(users: seq<User>, k: nat, name: string) {
    exists j :: 0 <= j < |users| && j != k && users[j].username == name
  }

  /** The presence reconciliation of one user: an agent on the connected
      list that is not online becomes available, an agent off the list that
      is online becomes offline; everyone else is left alone. */
  function SyncOne(u: User, connected: set<string>): (r: User)
    ensures r == u.(status := r.status)
    ensures !IsAgent(u) ==> r == u
    ensures IsAgent(u) ==> (IsOnline(r.status) <==> u.username in connected)
    ensures IsAgent(u) && IsOnline(u.status) == (u.username in connected) ==> r == u
  {
    if !IsAgent(u) then u
    else if u.username in connected && !IsOnline(u.status) then u.(status := Available)
    else if u.username !in connected && IsOnline(u.status) then u.(status := Offline)
    else u
  }

  /** The reconciliation of a whole directory. */
  function SyncAll(users: seq<User>, connected: set<string>): (r: seq<User>)
    ensures |r| == |users|
    ensures forall i :: 0 <= i < |users| ==> r[i] == SyncOne(users[i], connected)
  {
    if users == [] then [] else [SyncOne(users[0], connected)] + SyncAll(users[1..], connected)
  }

  /** Whether the reconciliation changes `u`. */
  predicate NeedsSync(u: User, connected: set<string>) {
    SyncOne(u, connected) != u
  }

  /** Usernames are unique (a unique index) and ids are unique and below
      `nextId`. */
  ghost predicate DirectoryValid(users: seq<User>, nextId: nat) {
    && (forall i, j :: 0 <= i < j < |users| ==> users[i].username != users[j].username)
    && (forall i, j :: 0 <= i < j < |users| ==> users[i].id != users[j].id)
    && (forall i :: 0 <= i < |users| ==> users[i].id < nextId)
  }

  /** Changing fields other than the username and the id keeps the
      directory valid. */
  lemma SameIdentities(before: seq<User>, after: seq<User>, nextId: nat)
    requires DirectoryValid(before, nextId) && |after| == |before|
    requires forall k :: 0 <= k < |after| ==> after[k].username == before[k].username && after[k].id == before[k].id
    ensures DirectoryValid(after, nextId)
  {
  }

  /** Reconciling changes only statuses, so it keeps the directory valid. */
  lemma PartialSyncValid(users: seq<User>, connected: set<string>, k: nat, nextId: nat)
    requires DirectoryValid(users, nextId) && k <= |users|
    ensures DirectoryValid(PartialSync(users, connected, k), nextId)
  {
    SameIdentities(users, PartialSync(users, connected, k), nextId);
  }

  class UserStore {
    var users: seq<User>
    var nextId: nat

    /** The directory invariant: unique usernames and ids, ids below
        `nextId`. */
    ghost predicate Valid()
      reads this
    {
      DirectoryValid(users, nextId)
    }

    constructor ()
      ensures Valid() && users == []
    {
      users := [];
      nextId := 0;
    }

    /** POST /agents: username and password are required, the username must
        be new (among all users, admins too), and the agent is stored as an
        `offline` agent with empty email and extension unless given. The
        name lookup settles as `lookup` and the insert as `insert`; a
        rejection answers 500 with its message and writes nothing. */
    method CreateAgent(req: CreateRequest, now: int, lookup: Settled, insert: Settled)
      returns (reply: Reply<AgentSummary>)
      requires Valid()
      modifies this
      ensures Valid()
      ensures !Truthy(req.username) || !Truthy(req.password) ==>
        reply == Fail(400, "Username and password are required") && unchanged(this)
      ensures Truthy(req.username) && Truthy(req.password) && lookup.Rejected? ==>
        reply == Fail(500, lookup.error) && unchanged(this)
      ensures Truthy(req.username) && Truthy(req.password) && lookup.Resolved?
              && UsernameTaken(old(users), req.username.value) ==>
        reply == Fail(400, "Username already exists") && unchanged(this)
      ensures Truthy(req.username) && Truthy(req.password) && lookup.Resolved?
              && !UsernameTaken(old(users), req.username.value) && insert.Rejected? ==>
        reply == Fail(500, insert.error) && unchanged(this)
      ensures Truthy(req.username) && Truthy(req.password) && lookup.Resolved?
              && !UsernameTaken(old(users), req.username.value) && insert.Resolved? ==>
        && users == old(users) + [NewAgent(req, old(nextId), now)]
        && nextId == old(nextId) + 1
        && reply == Ok(201, CreatedSummary(NewAgent(req, old(nextId), now)))
    {
      if !Truthy(req.username) || !Truthy(req.password) {
        return Fail(400, "Username and password are required");
      }
      if lookup.Rejected? {
        return Fail(500, lookup.error);
      }
      if UsernameTaken(users, req.username.value) {
        return Fail(400, "Username already exists");
      }
      if insert.Rejected? {
        return Fail(500, insert.error);
      }
      var agent := NewAgent(req, nextId, now);
      users := users + [agent];
      nextId := nextId + 1;
      reply := Ok(201, CreatedSummary(agent));
    }

    /** PUT /agents/:id: the lookup by id settles as `find` (it rejects for
        an id that is not a well-formed object id as well as for a database
        failure), and a rejection answers 500. A missing id or a non-agent
        gives 404. The update is then saved: validation fails (500, nothing
        written) when the resulting status is outside the schema's
        enumeration or the new username belongs to another user, and
        otherwise the write settles as `save`. */
    method UpdateAgent(id: nat, req: UpdateRequest, find: Settled, save: Settled) returns (reply: Reply<AgentSummary>)
      requires Valid()
      modifies this`users
      ensures Valid()
      ensures find.Rejected? ==> reply == Fail(500, find.error) && users == old(users)
      ensures find.Resolved? ==>
        var k := IndexOfId(old(users), id);
        if k.None? || !IsAgent(old(users)[k.value]) then
          reply == Fail(404, "Agent not found") && users == old(users)
        else
          var updated := ApplyUpdate(old(users)[k.value], req);
          if !ValidStatus(updated.status) || NameClash(old(users), k.value, updated.username) then
            reply.Fail? && reply.code == 500 && users == old(users)
          else if save.Rejected? then
            reply == Fail(500, save.error) && users == old(users)
          else
            users == old(users)[k.value := updated] && reply == Ok(200, UpdatedSummary(updated))
    {
      if find.Rejected? {
        return Fail(500, find.error);
      }
      var k := IndexOfId(users, id);
      if k.None? || !IsAgent(users[k.value]) {
        return Fail(404, "Agent not found");
      }
      var updated := ApplyUpdate(users[k.value], req);
      if !ValidStatus(updated.status) || NameClash(users, k.value, updated.username) {
        return Fail(500, "validation failed");
      }
      if save.Rejected? {
        return Fail(500, save.error);
      }
      users := users[k.value := updated];
      reply := Ok(200, UpdatedSummary(updated));
    }

    /** PUT /agents/:id/reset-password: a missing or short password gives
        400 before the agent is looked up; then the lookup settles as for an
        update, with 404 for a missing agent; then the new hash is saved,
        which fails validation when the stored status is outside the
        enumeration and otherwise settles as `save`. */
    method ResetPassword(id: nat, newPassword: Option<string>, find: Settled, save: Settled)
      returns (reply: Reply<string>)
      requires Valid()
      modifies this`users
      ensures Valid()
      ensures !AcceptableNewPassword(newPassword) ==>
        reply == Fail(400, "Password must be at least 6 characters") && users == old(users)
      ensures AcceptableNewPassword(newPassword) && find.Rejected? ==>
        reply == Fail(500, find.error) && users == old(users)
      ensures AcceptableNewPassword(newPassword) && find.Resolved? ==>
        var k := IndexOfId(old(users), id);
        if k.None? || !IsAgent(old(users)[k.value]) then
          reply == Fail(404, "Agent not found") && users == old(users)
        else if !ValidStatus(old(users)[k.value].status) then
          reply.Fail? && reply.code == 500 && users == old(users)
        else if save.Rejected? then
          reply == Fail(500, save.error) && users == old(users)
        else
          && users == old(users)[k.value := old(users)[k.value].(password := Hashed(newPassword.value))]
          && reply == Ok(200, "Password reset successfully")
    {
      if !AcceptableNewPassword(newPassword) {
        return Fail(400, "Password must be at least 6 characters");
      }
      if find.Rejected? {
        return Fail(500, find.error);
      }
      var k := IndexOfId(users, id);
      if k.None? || !IsAgent(users[k.value]) {
        return Fail(404, "Agent not found");
      }
      if !ValidStatus(users[k.value].status) {
        return Fail(500, "validation failed");
      }
      if save.Rejected? {
        return Fail(500, save.error);
      }
      users := users[k.value := users[k.value].(password := Hashed(newPassword.value))];
      reply := Ok(200, "Password reset successfully");
    }

    /** POST /sync-agent-status: loads the directory (settling as `load`)
        and reconciles it with the set of connected usernames (see
        `Reconcile`); the directory is left as the walk leaves it. */
    method SyncAgentStatus(connected: set<string>, load: Settled, writes: nat -> Settled)
      returns (reply: Reply<nat>)
      requires Valid()
      modifies this`users
      ensures Valid()
      ensures load.Rejected? ==> reply == Fail(500, load.error) && users == old(users)
      ensures load.Resolved? ==>
        match FirstFailedWrite(old(users), connected, writes, 0)
        case None =>
          && users == SyncAll(old(users), connected)
          && reply == Ok(200, Count(old(users), (u: User) => NeedsSync(u, connected)))
        case Some(k) =>
          users == PartialSync(old(users), connected, k) && reply == Fail(500, writes(k).error)
    {
      if load.Rejected? {
        return Fail(500, load.error);
      }
      var reconciled;
      reconciled, reply := Reconcile(users, connected, writes);
      match FirstFailedWrite(users, connected, writes, 0) {
        case None =>
          StoppedAt(users, connected, writes, |users|);
          PartialSyncValid(users, connected, |users|, nextId);
        case Some(k) =>
          PartialSyncValid(users, connected, k, nextId);
      }
      users := reconciled;
    }
  }

  /** The walk of `sync-agent-status` over the loaded directory: an agent
      on the connected list that is not online is written as available, an
      agent off the list that is online is written as offline, and every
      write counts. Each write is awaited: the one for the user at position
      `i` settles as `writes(i)`, and the first rejected write ends the walk
      with 500, the users before it already reconciled and the rest as they
      were. (The route loads only the agents; the walk here skips the other
      users, which `SyncOne` leaves alone.) */
  method Reconcile(directory: seq<User>, connected: set<string>, writes: nat -> Settled)
    returns (result: seq<User>, reply: Reply<nat>)
    ensures match FirstFailedWrite(directory, connected, writes, 0)
      case None =>
        && result == SyncAll(directory, connected)
        && reply == Ok(200, Count(directory, (u: User) => NeedsSync(u, connected)))
      case Some(k) =>
        result == PartialSync(directory, connected, k) && reply == Fail(500, writes(k).error)
  {
    ghost var needs := (u: User) => NeedsSync(u, connected);
    result := directory;
    var syncedCount := 0;
    var i := 0;
    assert result == PartialSync(directory, connected, 0);
    while i < |result|
      invariant 0 <= i <= |directory| && result == PartialSync(directory, connected, i)
      invariant forall k :: 0 <= k < i ==> !FailsAt(directory, connected, writes, k)
      invariant syncedCount == Count(directory[..i], needs)
    {
      SyncStep(directory, connected, i, needs);
      var agent := result[i];
      // the status the route writes for this agent, if any
      var newStatus: Option<string> := None;
      if IsAgent(agent) {
        var isConnected := agent.username in connected;
        var isCurrentlyOnline := IsOnline(agent.status);
        if isConnected && !isCurrentlyOnline {
          newStatus := Some(Available);
        } else if !isConnected && isCurrentlyOnline {
          newStatus := Some(Offline);
        }
      }
      if newStatus.Some? {
        if writes(i).Rejected? {
          StoppedAt(directory, connected, writes, i);
          return result, Fail(500, writes(i).error);
        }
        result := result[i := agent.(status := newStatus.value)];
        syncedCount := syncedCount + 1;
      }
      i := i + 1;
    }
    assert directory[..i] == directory;
    StoppedAt(directory, connected, writes, i);
    reply := Ok(200, syncedCount);
  }

  /** The status write for the user at position `j` happens and rejects. */
  predicate FailsAt(users: seq<User>, connected: set<string>, writes: nat -> Settled, j: nat) {
    j < |users| && NeedsSync(users[j], connected) && writes(j).Rejected?
  }

  /** The position of the first status write that rejects, from `from` on. */
  function FirstFailedWrite(users: seq<User>, connected: set<string>, writes: nat -> Settled, from: nat)
    : (k: Option<nat>)
    requires from <= |users|
    ensures k.Some? ==>
      && from <= k.value < |users| && FailsAt(users, connected, writes, k.value)
      && forall j :: from <= j < k.value ==> !FailsAt(users, connected, writes, j)
    ensures k.None? ==> forall j :: from <= j < |users| ==> !FailsAt(users, connected, writes, j)
    decreases |users| - from
  {
    if from == |users| then None
    else if FailsAt(users, connected, writes, from) then Some(from)
    else FirstFailedWrite(users, connected, writes, from + 1)
  }

  /** The first failure is the one at `i` when none comes before it. */
  lemma FirstFailureIsHere(users: seq<User>, connected: set<string>, writes: nat -> Settled, i: nat)
    requires FailsAt(users, connected, writes, i)
    requires forall k :: 0 <= k < i ==> !FailsAt(users, connected, writes, k)
    ensures FirstFailedWrite(users, connected, writes, 0) == Some(i)
  {
  }

  /** One step of the walk: the user at `i` is reconciled (a change
      exactly when it needs one) and counted when it needs a change. */
  lemma SyncStep(before: seq<User>, connected: set<string>, i: nat, needs: User -> bool)
    requires i < |before|
    requires forall u :: needs(u) == NeedsSync(u, connected)
    ensures PartialSync(before, connected, i)[i := SyncOne(before[i], connected)] == PartialSync(before, connected, i + 1)
    ensures PartialSync(before, connected, i)[i] == before[i]
    ensures Count(before[..i + 1], needs) == Count(before[..i], needs) + (if needs(before[i]) then 1 else 0)
    ensures needs(before[i]) <==> IsAgent(before[i]) && (IsOnline(before[i].status) != (before[i].username in connected))
    ensures !needs(before[i]) ==> SyncOne(before[i], connected) == before[i]
  {
    assert before[..i + 1] == before[..i] + [before[i]];
    CountAppend(before[..i], [before[i]], needs);
    NeedsSyncExactly(before[i], connected);
  }

  /** A walk that stops at position `i` (the failed write there, or the end
      of the directory) leaves the directory partly reconciled up to `i`,
      and `i` is where the first failure is. */
  lemma StoppedAt(before: seq<User>, connected: set<string>, writes: nat -> Settled, i: nat)
    requires i <= |before|
    requires i < |before| ==> FailsAt(before, connected, writes, i)
    requires forall k :: 0 <= k < i ==> !FailsAt(before, connected, writes, k)
    ensures i < |before| ==> FirstFailedWrite(before, connected, writes, 0) == Some(i)
    ensures i == |before| ==> FirstFailedWrite(before, connected, writes, 0).None?
    ensures i == |before| ==> PartialSync(before, connected, i) == SyncAll(before, connected)
  {
    if i < |before| {
      FirstFailureIsHere(before, connected, writes, i);
    } else {
      assert before[..i] == before;
    }
  }

  /** The directory after a walk stopped at position `k`: the users before
      it reconciled, the others as they were. */
  function PartialSync(users: seq<User>, connected: set<string>, k: nat): (r: seq<User>)
    requires k <= |users|
    ensures |r| == |users|
    ensures forall j :: 0 <= j < k ==> r[j] == SyncOne(users[j], connected)
    ensures forall j :: k <= j < |users| ==> r[j] == users[j]
    ensures forall j :: 0 <= j < |users| ==> r[j].username == users[j].username && r[j].id == users[j].id
  {
    SyncAll(users[..k], connected) + users[k..]
  }

  // ---------------------------------------------------------------------
  // Properties of the reconciliation
  // ---------------------------------------------------------------------

  /** After a sync an agent is online exactly when its username is
      connected; other users are untouched, and so is every field but the
      status. */
  lemma SyncOnlineIffConnected(users: seq<User>, connected: set<string>, i: nat)
    requires i < |users|
    ensures var r := SyncAll(users, connected);
      && (IsAgent(users[i]) ==> (IsOnline(r[i].status) <==> users[i].username in connected))
      && (!IsAgent(users[i]) ==> r[i] == users[i])
      && r[i] == users[i].(status := r[i].status)
  {
  }

  /** The reconciliation changes a user exactly when it is an agent whose
      online test disagrees with its connection. */
  lemma NeedsSyncExactly(u: User, connected: set<string>)
    ensures NeedsSync(u, connected) <==> IsAgent(u) && (IsOnline(u.status) != (u.username in connected))
  {
  }

  /** A second sync changes nothing and reports zero. */
  lemma {:induction false} SyncIdempotent(users: seq<User>, connected: set<string>)
    ensures SyncAll(SyncAll(users, connected), connected) == SyncAll(users, connected)
    ensures Count(SyncAll(users, connected), (u: User) => NeedsSync(u, connected)) == 0
  {
    var once := SyncAll(users, connected);
    forall i | 0 <= i < |once| ensures SyncOne(once[i], connected) == once[i] {
      SyncOnlineIffConnected(users, connected, i);
    }
    assert SyncAll(once, connected) == once;
    assert forall i :: 0 <= i < |once| ==> !NeedsSync(once[i], connected);
    CountNone(once, (u: User) => NeedsSync(u, connected));
  }

  /** A walk stopped by a failed write is completed by running the sync
      again: reconciling the partly reconciled directory gives the full
      reconciliation of the original one. */
  lemma RetryAfterFailedSync(users: seq<User>, connected: set<string>, k: nat)
    requires k <= |users|
    ensures SyncAll(PartialSync(users, connected, k), connected) == SyncAll(users, connected)
  {
    var partial := PartialSync(users, connected, k);
    var again := SyncAll(partial, connected);
    forall j | 0 <= j < |users| ensures again[j] == SyncAll(users, connected)[j] {
      if j < k {
        SyncOnlineIffConnected(users, connected, j);
        assert SyncOne(partial[j], connected) == partial[j];
      }
    }
  }

  lemma {:induction false} CountNone<T>(s: seq<T>, p: T -> bool)
    requires forall i :: 0 <= i < |s| ==> !p(s[i])
    ensures Count(s, p) == 0
  {
    if s != [] {
      CountNone(s[1..], p);
    }
  }

  /** The server never registers a connected-agent list, so the route sees
      an empty one: every online agent is set offline, and the count is the
      number of agents that were online. */
  lemma {:induction false} SyncWithNoConnections(users: seq<User>)
    ensures forall i :: 0 <= i < |users| && IsAgent(users[i]) ==>
      SyncAll(users, {})[i].status == (if IsOnline(users[i].status) then Offline else users[i].status)
    ensures Count(users, (u: User) => NeedsSync(u, {})) == Count(users, IsOnlineAgent)
  {
    CountCongruent(users, (u: User) => NeedsSync(u, {}), IsOnlineAgent);
  }
}

=== FILE: agent_management.dfy ===
/** The agent-management page: the search filter over the loaded agents,
    the status badge, and the create and edit forms with the request each
    submits. */
module AgentManagement {
  import opened Common
  import opened Models
  import AdminRoutes

  /** The username contains the query, ignoring the case of ASCII letters. */
  predicate MatchesQuery(agent: User, query: string) {
    Includes(ToLower(agent.username), ToLower(query))
  }

  /** `filteredAgents`: exactly the agents whose username matches the
      query, in their original order. */
  function FilteredAgents(agents: seq<User>, query: string): (r: seq<User>)
    ensures forall i :: 0 <= i < |r| ==> r[i] in agents && MatchesQuery(r[i], query)
    ensures forall i :: 0 <= i < |agents| && MatchesQuery(agents[i], query) ==> agents[i] in r
  {
    Filter(agents, (a: User) => MatchesQuery(a, query))
  }

  /** The filter keeps the original order: it distributes over any split
      of the list. */
  lemma FilterKeepsOrder(a: seq<User>, b: seq<User>, query: string)
    ensures FilteredAgents(a + b, query) == FilteredAgents(a, query) + FilteredAgents(b, query)
  {
    FilterAppend(a, b, (u: User) => MatchesQuery(u, query));
  }

  /** An empty search shows every agent. */
  lemma {:induction false} EmptyQueryKeepsAll(agents: seq<User>)
    ensures FilteredAgents(agents, "") == agents
  {
    if agents != [] {
      IncludesSpec(ToLower(agents[0].username), "");
      EmptyQueryKeepsAll(agents[1..]);
      assert agents == [agents[0]] + agents[1..];
    }
  }

  /** A status badge: its CSS classes and its caption. */
  datatype Badge = Badge(cssClass: string, caption: string)

  const OfflineBadge: Badge := Badge("bg-gray-500/20 text-gray-400 border border-gray-500/30", "Offline")

  /** `getStatusBadge`: the four known statuses get their own badge; any
      other value falls back to the offline badge. */
  function GetStatusBadge(status: string): (b: Badge)
    ensures status == Available ==> b == Badge("badge-available", "Available")
    ensures status == Busy ==> b == Badge("badge-busy", "Busy")
    ensures status == Away ==> b == Badge("badge-away", "Away")
    ensures !(status == Available || status == Busy || status == Away) ==> b == OfflineBadge
    ensures b.caption in ["Available", "Busy", "Away", "Offline"]
  {
    if status == Available then Badge("badge-available", "Available")
    else if status == Busy then Badge("badge-busy", "Busy")
    else if status == Away then Badge("badge-away", "Away")
    else OfflineBadge
  }

  /** The badge reads "Offline" exactly when the admin routes would count
      the agent as offline. */
  lemma BadgeAgreesWithAdminOnline(status: string)
    ensures GetStatusBadge(status).caption == "Offline" <==> !AdminRoutes.IsOnline(status)
  {
  }

  /** The agent form. */
  datatype FormData = FormData(username: string, password: string, email: string, extension: string)

  /** The modal state the two openers set. */
  datatype AgentModal = AgentModal(editing: Option<User>, form: FormData, error: string, success: string, show: bool)

  /** `openCreateModal`: nothing being edited, all four fields empty. */
  function OpenCreateModal(): (m: AgentModal)
    ensures m.editing.None? && m.show && m.error == "" && m.success == ""
    ensures m.form.username == "" && m.form.password == "" && m.form.email == "" && m.form.extension == ""
  {
    AgentModal(None, FormData("", "", "", ""), "", "", true)
  }

  /** `openEditModal`: the agent is being edited, the form copies its
      username, email and extension, and the password starts empty. */
  function OpenEditModal(agent: User): (m: AgentModal)
    ensures m.editing == Some(agent) && m.show && m.error == "" && m.success == ""
    ensures m.form.username == agent.username && m.form.password == ""
    ensures m.form.email == agent.email && m.form.extension == agent.extension
  {
    AgentModal(Some(agent), FormData(agent.username, "", agent.email, agent.extension), "", "", true)
  }

  /** The body `handleSubmit` sends as an update: the whole form. The form
      has no status field, so an edit never changes the status; email and
      extension are always supplied, so the route always writes them; an
      empty password keeps the stored hash. */
  function UpdateRequestOf(f: FormData): (r: AdminRoutes.UpdateRequest)
    ensures forall u :: AdminRoutes.ApplyUpdate(u, r).status == u.status
    ensures forall u :: AdminRoutes.ApplyUpdate(u, r).email == f.email && AdminRoutes.ApplyUpdate(u, r).extension == f.extension
    ensures forall u :: f.password == "" ==> AdminRoutes.ApplyUpdate(u, r).password == u.password
    ensures forall u :: f.username != "" ==> AdminRoutes.ApplyUpdate(u, r).username == f.username
  {
    AdminRoutes.UpdateRequest(Some(f.username), Some(f.password), Some(f.email), Some(f.extension), None)
  }

  /** The body `handleSubmit` sends as a create: the whole form. The route
      accepts it exactly when username and password are filled in, and
      then stores the form's email and extension. */
  function CreateRequestOf(f: FormData): (r: AdminRoutes.CreateRequest)
    ensures Truthy(r.username) && Truthy(r.password) <==> f.username != "" && f.password != ""
    ensures Truthy(r.username) && Truthy(r.password) ==>
      forall id: nat, now: int :: AdminRoutes.NewAgent(r, id, now).email == f.email
        && AdminRoutes.NewAgent(r, id, now).extension == f.extension
        && AdminRoutes.NewAgent(r, id, now).username == f.username
  {
    AdminRoutes.CreateRequest(Some(f.username), Some(f.password), Some(f.email), Some(f.extension))
  }

  /** Saving the edit form untouched changes nothing on the server: the
      empty password keeps the stored hash and the copied fields are
      written back as they were. */
  lemma UntouchedEditIsIdentity(agent: User)
    ensures AdminRoutes.ApplyUpdate(agent, UpdateRequestOf(OpenEditModal(agent).form)) == agent
  {
  }

  /** Submitting the create form untouched is refused for the missing
      username and password. */
  lemma UntouchedCreateIsRefused()
    ensures var req := CreateRequestOf(OpenCreateModal().form);
      !Truthy(req.username) && !Truthy(req.password)
  {
  }
}

=== FILE: app_routes.dfy ===
/** The client's route table and its guard: which page a path shows for a
    given stored token and role, following the guard's redirects. */
module AppRoutes {
  import opened Common

  /** The decision of the route guard. */
  datatype Guard = Render | NavigateTo(path: string)

  /** `allowedRoles.includes(role)`; a missing role is never included. */
  predicate RoleAllowed(allowedRoles: seq<string>, role: Option<string>) {
    role.Some? && role.value in allowedRoles
  }

  /** `ProtectedRoute` as written: no token goes to the login page; a
      token whose role is not allowed goes to the admin dashboard for an
      admin and to the agent dashboard for any other role (a missing or
      unknown one too); otherwise the children render. */
  function ProtectedRoute(token: Option<string>, role: Option<string>, allowedRoles: Option<seq<string>>): (g: Guard)
    ensures !Truthy(token) ==> g == NavigateTo("/login")
    ensures Truthy(token) && allowedRoles.Some? && !RoleAllowed(allowedRoles.value, role) ==>
      g == NavigateTo(if role == Some("admin") then "/admin/dashboard" else "/dashboard")
    ensures Truthy(token) && (allowedRoles.None? || RoleAllowed(allowedRoles.value, role)) ==> g == Render
  {
    if !Truthy(token) then NavigateTo("/login")
    else if allowedRoles.Some? && !RoleAllowed(allowedRoles.value, role) then
      NavigateTo(if role == Some("admin") then "/admin/dashboard" else "/dashboard")
    else Render
  }

  /** The guard as evidently intended: a role that has no dashboard of its
      own is sent to the login page instead of the agent dashboard. */
  function ProtectedRouteCorrected(token: Option<string>, role: Option<string>, allowedRoles: Option<seq<string>>): (g: Guard)
    ensures role == Some("admin") || role == Some("agent") ==> g == ProtectedRoute(token, role, allowedRoles)
    ensures !(role == Some("admin") || role == Some("agent")) && ProtectedRoute(token, role, allowedRoles) != Render ==>
      g == NavigateTo("/login")
    ensures g == Render <==> ProtectedRoute(token, role, allowedRoles) == Render
  {
    match ProtectedRoute(token, role, allowedRoles)
    case Render => Render
    case NavigateTo(p) => if role == Some("admin") || role == Some("agent") then NavigateTo(p) else NavigateTo("/login")
  }

  const AgentPaths: seq<string> := ["/dashboard", "/messaging", "/queue", "/profile"]
  const AdminPaths: seq<string> := ["/admin/dashboard", "/admin/agents", "/admin/settings"]

  /** The pages of the application. */
  datatype Page = LoginPage | AgentPage(path: string) | AdminPage(path: string)

  /** What one visit to a path does: show a page or redirect. */
  datatype Outcome = Show(page: Page) | Redirect(to: string)

  function GuardOutcome(g: Guard, page: Page): Outcome {
    match g
    case Render => Show(page)
    case NavigateTo(p) => Redirect(p)
  }

  /** `s` without its trailing slashes. */
  function StripTrailingSlashes(s: string): string {
    if s != [] && s[|s| - 1] == '/' then StripTrailingSlashes(s[..|s| - 1]) else s
  }

  /** Stripping keeps a prefix of `s` that does not end in a slash, and
      what it drops is slashes only. */
  lemma {:induction false} StripTrailingSlashesSpec(s: string)
    ensures var r := StripTrailingSlashes(s);
      && |r| <= |s| && r == s[..|r|]
      && (r == [] || r[|r| - 1] != '/')
      && forall i :: |r| <= i < |s| ==> s[i] == '/'
  {
    if s != [] && s[|s| - 1] == '/' {
      StripTrailingSlashesSpec(s[..|s| - 1]);
    }
  }

  /** What the router compares with a route's path: routes match without
      regard to the case of ASCII letters (the router's default, a regular
      expression with the `i` flag) and accept any number of trailing
      slashes. */
  function RouteKey(path: string): string {
    StripTrailingSlashes(ToLower(path))
  }

  /** One visit: the login page is public, the agent pages sit behind a
      guard for agents, the admin pages behind a guard for admins, and `/`
      and every other path redirect to the login page. A page is named by
      the route it matched. `corrected` selects the guard. */
  function Visit(path: string, token: Option<string>, role: Option<string>, corrected: bool): (o: Outcome)
    ensures o == Show(LoginPage) <==> RouteKey(path) == "/login"
    ensures o.Show? && o.page.AgentPage? ==> o.page.path == RouteKey(path) && o.page.path in AgentPaths
    ensures o.Show? && o.page.AdminPage? ==> o.page.path == RouteKey(path) && o.page.path in AdminPaths
    ensures RouteKey(path) !in AgentPaths && RouteKey(path) !in AdminPaths && RouteKey(path) != "/login" ==>
      o == Redirect("/login")
  {
    var key := RouteKey(path);
    var guard := if corrected then ProtectedRouteCorrected else ProtectedRoute;
    if key == "/login" then Show(LoginPage)
    else if key in AgentPaths then GuardOutcome(guard(token, role, Some(["agent"])), AgentPage(key))
    else if key in AdminPaths then GuardOutcome(guard(token, role, Some(["admin"])), AdminPage(key))
    else Redirect("/login")
  }

  /** Every route path is its own key, so a location spelled as in the
      route table reaches that route. */
  lemma RoutePathsAreKeys()
    ensures RouteKey("/dashboard") == "/dashboard" && RouteKey("/messaging") == "/messaging"
    ensures RouteKey("/queue") == "/queue" && RouteKey("/profile") == "/profile"
    ensures RouteKey("/admin/dashboard") == "/admin/dashboard"
    ensures RouteKey("/admin/agents") == "/admin/agents"
    ensures RouteKey("/admin/settings") == "/admin/settings"
    ensures RouteKey("/login") == "/login"
  {
  }

  /** A visit does not depend on the case of ASCII letters or on a
      trailing slash: `/Dashboard` and `/dashboard/` go where `/dashboard`
      goes. */
  lemma VisitIgnoresCaseAndTrailingSlash(path: string, token: Option<string>, role: Option<string>, corrected: bool)
    ensures Visit(path + "/", token, role, corrected) == Visit(path, token, role, corrected)
    ensures Visit(ToLower(path), token, role, corrected) == Visit(path, token, role, corrected)
  {
    var lower := ToLower(path);
    assert ToLower(path + "/") == lower + "/";
    assert (lower + "/")[..|lower|] == lower;
    assert RouteKey(path + "/") == RouteKey(path);
    ToLowerIdempotent(path);
  }

  /** Follows redirects, at most `hops` of them; `None` when no page is
      reached within that many. */
  function Resolve(path: string, token: Option<string>, role: Option<string>, corrected: bool, hops: nat): Option<Page>
    decreases hops
  {
    match Visit(path, token, role, corrected)
    case Show(p) => Some(p)
    case Redirect(to) => if hops == 0 then None else Resolve(to, token, role, corrected, hops - 1)
  }

  /** Without a token every path ends on the login page after at most one
      redirect. */
  lemma NoTokenShowsLogin(path: string, role: Option<string>, token: Option<string>)
    requires !Truthy(token)
    ensures Resolve(path, token, role, false, 1) == Some(LoginPage)
  {
    RoutePathsAreKeys();
  }

  /** An agent sees the agent pages, and an admin path takes it to the
      agent dashboard. */
  lemma AgentNavigation(path: string, token: Option<string>)
    requires Truthy(token)
    ensures RouteKey(path) in AgentPaths ==>
      Resolve(path, token, Some("agent"), false, 0) == Some(AgentPage(RouteKey(path)))
    ensures RouteKey(path) in AdminPaths ==>
      Resolve(path, token, Some("agent"), false, 1) == Some(AgentPage("/dashboard"))
  {
    RoutePathsAreKeys();
    if RouteKey(path) in AdminPaths {
      assert Visit(path, token, Some("agent"), false) == Redirect("/dashboard");
      assert Visit("/dashboard", token, Some("agent"), false) == Show(AgentPage("/dashboard"));
    }
  }

  /** An admin sees the admin pages, and an agent path takes it to the
      admin dashboard. */
  lemma AdminNavigation(path: string, token: Option<string>)
    requires Truthy(token)
    ensures RouteKey(path) in AdminPaths ==>
      Resolve(path, token, Some("admin"), false, 0) == Some(AdminPage(RouteKey(path)))
    ensures RouteKey(path) in AgentPaths ==>
      Resolve(path, token, Some("admin"), false, 1) == Some(AdminPage("/admin/dashboard"))
  {
    RoutePathsAreKeys();
    if RouteKey(path) in AgentPaths {
      assert Visit(path, token, Some("admin"), false) == Redirect("/admin/dashboard");
      assert Visit("/admin/dashboard", token, Some("admin"), false) == Show(AdminPage("/admin/dashboard"));
    }
  }

  /** As written, a token whose role is neither admin nor agent (a missing
      role included) never reaches a page from a protected path: the guard
      sends it to the agent dashboard, whose guard sends it there again. */
  lemma {:induction false} UnknownRoleRedirectLoop(path: string, token: Option<string>, role: Option<string>, hops: nat)
    requires Truthy(token) && role != Some("admin") && role != Some("agent")
    requires RouteKey(path) in AgentPaths || RouteKey(path) in AdminPaths
    ensures Resolve(path, token, role, false, hops) == None
    decreases hops
  {
    RoutePathsAreKeys();
    assert Visit(path, token, role, false) == Redirect("/dashboard");
    if hops > 0 {
      UnknownRoleRedirectLoop("/dashboard", token, role, hops - 1);
    }
  }

  /** The login page stores a token but no role and then opens
      `/messaging`: as written, no page is ever reached from there. */
  lemma LoginThenMessagingNeverSettles(token: Option<string>, hops: nat)
    requires Truthy(token)
    ensures Resolve("/messaging", token, None, false, hops) == None
  {
    RoutePathsAreKeys();
    UnknownRoleRedirectLoop("/messaging", token, None, hops);
  }

  /** With the corrected guard every path reaches a page within two
      redirects, whatever the token and role. */
  lemma CorrectedGuardAlwaysSettles(path: string, token: Option<string>, role: Option<string>)
    ensures Resolve(path, token, role, true, 2).Some?
  {
    match Visit(path, token, role, true)
    case Show(_) =>
    case Redirect(to) =>
      RedirectTargetShows(path, token, role, to);
      assert Resolve(path, token, role, true, 2) == Resolve(to, token, role, true, 1);
  }

  /** Where the corrected guard redirects, a page is shown. */
  lemma RedirectTargetShows(path: string, token: Option<string>, role: Option<string>, to: string)
    requires Visit(path, token, role, true) == Redirect(to)
    ensures Visit(to, token, role, true).Show?
  {
    RoutePathsAreKeys();
    if to != "/login" {
      if role == Some("admin") {
        assert to == "/admin/dashboard";
      } else {
        assert to == "/dashboard";
      }
    }
  }
}

=== FILE: auth_middleware.dfy ===
/** The request guards of the backend: bearer-token authentication and
    the admin gate. Token verification (the JWT signature check against the
    server secret) is the parameter `verify`, which yields the decoded
    claims or nothing. */
module AuthMiddleware {
  import opened Common

  /** The decoded token payload that becomes `req.user`. A field the
      signer did not put in the payload is absent: the login route signs
      only the id and the role, so its tokens carry no username. */
  datatype Claims = Claims(id: string, username: Option<string>, role: Option<string>)

  /** What a guard does with a request: pass it on (with the user it
      attached) or answer it with an error. */
  datatype Decision = Next(user: Claims) | Reject(code: nat, message: string)

  const BearerPrefix: string := "Bearer "

  /** The token in an Authorization header: after the seven characters of
      `Bearer ` when the header starts with them, otherwise the whole
      header. */
  function ExtractToken(header: string): (t: string)
    ensures StartsWith(header, BearerPrefix) ==> header == BearerPrefix + t
    ensures !StartsWith(header, BearerPrefix) ==> t == header
  {
    if StartsWith(header, BearerPrefix) then header[|BearerPrefix|..] else header
  }

  /** A bearer header yields exactly the token it carries, and only one
      prefix is removed. */
  lemma BearerRoundTrip(token: string)
    ensures ExtractToken(BearerPrefix + token) == token
    ensures ExtractToken(BearerPrefix + BearerPrefix + token) == BearerPrefix + token
  {
    assert (BearerPrefix + token)[..|BearerPrefix|] == BearerPrefix;
    assert (BearerPrefix + BearerPrefix + token)[..|BearerPrefix|] == BearerPrefix;
  }

  /** `authMiddleware`: a missing or empty header is refused, as is a token
      that does not verify; otherwise the decoded claims are attached and
      the request goes on. */
  function Authenticate(header: Option<string>, verify: string -> Option<Claims>): (d: Decision)
    ensures !Truthy(header) ==> d == Reject(401, "No token provided")
    ensures Truthy(header) && verify(ExtractToken(header.value)).None? ==> d == Reject(401, "Invalid token")
    ensures Truthy(header) && verify(ExtractToken(header.value)).Some? ==>
      d == Next(verify(ExtractToken(header.value)).value)
  {
    if !Truthy(header) then Reject(401, "No token provided")
    else match verify(ExtractToken(header.value))
      case None => Reject(401, "Invalid token")
      case Some(claims) => Next(claims)
  }

  /** `adminOnly`: only a user whose role is `admin` goes on. */
  function AdminOnly(user: Option<Claims>): (d: Decision)
    ensures d.Next? <==> user.Some? && user.value.role == Some("admin")
    ensures d.Next? ==> d.user == user.value
    ensures d.Reject? ==> d == Reject(403, "Admin access required")
  {
    if user.Some? && user.value.role == Some("admin") then Next(user.value)
    else Reject(403, "Admin access required")
  }

  /** The two guards in sequence, as on the admin-only routes. */
  function AuthenticateThenAdmin(header: Option<string>, verify: string -> Option<Claims>): (d: Decision)
    ensures d.Next? ==> d.user.role == Some("admin") && Authenticate(header, verify) == Next(d.user)
    ensures d.Reject? ==> d.code == 401 || d == Reject(403, "Admin access required")
  {
    match Authenticate(header, verify)
    case Reject(code, message) => Reject(code, message)
    case Next(user) => AdminOnly(Some(user))
  }

  /** An admin-only route is reached exactly with a header whose token
      verifies to admin claims; an unauthenticated request is refused with
      401, never with 403. */
  lemma AdminRouteAccess(header: Option<string>, verify: string -> Option<Claims>)
    ensures AuthenticateThenAdmin(header, verify).Next? <==>
      && Truthy(header)
      && verify(ExtractToken(header.value)).Some?
      && verify(ExtractToken(header.value)).value.role == Some("admin")
    ensures AuthenticateThenAdmin(header, verify) == Reject(403, "Admin access required") ==>
      Authenticate(header, verify).Next?
  {
  }
}

=== FILE: call_routes.dfy ===
/** The dashboard statistics of the call routes (GET /stats), as a
    function of the Call and User collections and the start of the current
    day (a parameter standing for the clock). */
module CallRoutes {
  import opened Common
  import opened Models
  import AdminRoutes

  /** The online test of this route: available or busy, and not away. */
  predicate IsOnline(status: string) {
    status == Available || status == Busy
  }

  predicate IsOnlineAgent(u: User) {
    IsAgent(u) && IsOnline(u.status)
  }

  datatype CallStats = CallStats(
    activeCalls: nat, agentsOnline: nat, queueLength: nat, avgWaitTime: string,
    callsToday: nat, resolvedToday: nat)

  const AvgWaitTime: string := "2:45"

  /** `Math.max(0, activeCalls - agentsOnline)`: the calls that exceed the
      online agents, never negative. */
  function QueueLength(activeCalls: nat, agentsOnline: nat): (q: nat)
    ensures q >= activeCalls - agentsOnline
    ensures q == 0 || q == activeCalls - agentsOnline
    ensures q <= activeCalls
    ensures q == 0 <==> activeCalls <= agentsOnline
  {
    if activeCalls > agentsOnline then activeCalls - agentsOnline else 0
  }

  predicate IsToday(c: Call, startOfToday: int) {
    c.timestamp >= startOfToday
  }

  predicate ResolvedToday(c: Call, startOfToday: int) {
    c.timestamp >= startOfToday && c.status == Completed
  }

  /** The four counts, the queue length derived from two of them, and the
      fixed average wait. A call resolved today is a call of today, so
      `resolvedToday` never exceeds `callsToday`. */
  function GetStats(calls: seq<Call>, users: seq<User>, startOfToday: int): (r: CallStats)
    ensures r.activeCalls == Count(calls, (c: Call) => c.status == InProgress)
    ensures r.agentsOnline == Count(users, IsOnlineAgent)
    ensures r.callsToday == Count(calls, (c: Call) => IsToday(c, startOfToday))
    ensures r.resolvedToday == Count(calls, (c: Call) => ResolvedToday(c, startOfToday))
    ensures r.resolvedToday <= r.callsToday
    ensures r.queueLength == QueueLength(r.activeCalls, r.agentsOnline)
    ensures r.avgWaitTime == AvgWaitTime
  {
    var activeCalls := Count(calls, (c: Call) => c.status == InProgress);
    var agentsOnline := Count(users, IsOnlineAgent);
    var callsToday := Count(calls, (c: Call) => IsToday(c, startOfToday));
    var resolvedToday := Count(calls, (c: Call) => ResolvedToday(c, startOfToday));
    CountMonotone(calls, (c: Call) => ResolvedToday(c, startOfToday), (c: Call) => IsToday(c, startOfToday));
    CallStats(activeCalls, agentsOnline, QueueLength(activeCalls, agentsOnline), AvgWaitTime,
              callsToday, resolvedToday)
  }

  /** A strictly stronger test on one element counts strictly fewer. */
  lemma {:induction false} CountStrict<T>(s: seq<T>, p: T -> bool, q: T -> bool, i: nat)
    requires forall x :: p(x) ==> q(x)
    requires i < |s| && q(s[i]) && !p(s[i])
    ensures Count(s, p) < Count(s, q)
  {
    if i == 0 {
      CountMonotone(s[1..], p, q);
    } else {
      CountStrict(s[1..], p, q, i - 1);
    }
  }

  /** The two online tests disagree: the dashboard's count never exceeds
      the admin statistics' count, and the two are equal exactly when no
      agent is away. */
  lemma OnlineCountsCompared(calls: seq<Call>, users: seq<User>, startOfToday: int)
    ensures GetStats(calls, users, startOfToday).agentsOnline
            <= AdminRoutes.GetStats(users, calls).onlineAgents
    ensures GetStats(calls, users, startOfToday).agentsOnline
            == AdminRoutes.GetStats(users, calls).onlineAgents
        <==> forall i :: 0 <= i < |users| && IsAgent(users[i]) ==> users[i].status != Away
  {
    CountMonotone(users, IsOnlineAgent, AdminRoutes.IsOnlineAgent);
    if exists i :: 0 <= i < |users| && IsAgent(users[i]) && users[i].status == Away {
      var i :| 0 <= i < |users| && IsAgent(users[i]) && users[i].status == Away;
      CountStrict(users, IsOnlineAgent, AdminRoutes.IsOnlineAgent, i);
    } else {
      CountCongruent(users, IsOnlineAgent, AdminRoutes.IsOnlineAgent);
    }
  }
}

=== FILE: common.dfy ===
/** Small vocabulary shared by every module: optional values, replies and
    the outcome of an awaited database call, the JavaScript notion of a
    "truthy" string, ASCII lower-casing, string search, and counting and
    filtering over sequences (the `filter(...).length` idiom of the
    routes). */
module Common {

  /** `undefined`/`null` versus a present value. */
  datatype Option<+T> = None | Some(value: T)

  /** An HTTP reply: a success status with its body, or an error status with
      the `message` of its JSON body. */
  datatype Reply<T> = Ok(code: nat, body: T) | Fail(code: nat, message: string)

  /** How an awaited database call settles: it resolves, or it rejects with
      an error whose `message` the routes' `catch` blocks send with a 500. */
  datatype Settled = Resolved | Rejected(error: string)

  /** A string is truthy in JavaScript unless it is absent or empty. */
  predicate Truthy(s: Option<string>) {
    s.Some? && s.value != ""
  }

  /** `s || ""`: the string when it is truthy, otherwise the empty string. */
  function OrEmpty(s: Option<string>): (r: string)
    ensures Truthy(s) ==> r == s.value
    ensures !Truthy(s) ==> r == ""
  {
    if Truthy(s) then s.value else ""
  }

  /** `toLowerCase` on the ASCII letters. */
  function ToLowerChar(c: char): (d: char)
    ensures 'A' <= c <= 'Z' ==> d as int == c as int + 32
    ensures !('A' <= c <= 'Z') ==> d == c
  {
    if 'A' <= c <= 'Z' then (c as int + 32) as char else c
  }

  function ToLower(s: string): (r: string)
    ensures |r| == |s|
    ensures forall i :: 0 <= i < |s| ==> r[i] == ToLowerChar(s[i])
  {
    seq(|s|, i requires 0 <= i < |s| => ToLowerChar(s[i]))
  }

  /** Lower-casing is idempotent. */
  lemma ToLowerIdempotent(s: string)
    ensures ToLower(ToLower(s)) == ToLower(s)
  {
  }

  /** `s.startsWith(prefix)` */
  predicate StartsWith(s: string, prefix: string) {
    |prefix| <= |s| && s[..|prefix|] == prefix
  }

  /** `sub` occurs in `s` at position `i`. */
  predicate OccursAt(s: string, sub: string, i: nat) {
    i + |sub| <= |s| && s[i..i + |sub|] == sub
  }

  /** `s.includes(sub)`, searching from position `from` on. */
  predicate IncludesFrom(s: string, sub: string, from: nat)
    decreases |s| - from
  {
    from + |sub| <= |s| && (OccursAt(s, sub, from) || IncludesFrom(s, sub, from + 1))
  }

  predicate Includes(s: string, sub: string) {
    IncludesFrom(s, sub, 0)
  }

  lemma {:induction false} IncludesFromSpec(s: string, sub: string, from: nat)
    ensures IncludesFrom(s, sub, from) <==> exists i :: from <= i && OccursAt(s, sub, i)
    decreases |s| - from
  {
    if from + |sub| <= |s| {
      IncludesFromSpec(s, sub, from + 1);
      if !OccursAt(s, sub, from) {
        forall i | from <= i && OccursAt(s, sub, i) ensures from + 1 <= i { }
      }
    } else {
      forall i | from <= i ensures !OccursAt(s, sub, i) { }
    }
  }

  /** `includes` holds exactly when `sub` occurs somewhere in `s`; in
      particular the empty string occurs in every string. */
  lemma IncludesSpec(s: string, sub: string)
    ensures Includes(s, sub) <==> exists i :: OccursAt(s, sub, i)
    ensures sub == [] ==> Includes(s, sub)
  {
    IncludesFromSpec(s, sub, 0);
    if sub == [] {
      assert OccursAt(s, sub, 0);
    }
  }

  /** `s.filter(p).length` */
  function Count<T>(s: seq<T>, p: T -> bool): (n: nat)
    ensures n <= |s|
    ensures n == |s| <==> forall i :: 0 <= i < |s| ==> p(s[i])
  {
    if s == [] then 0
    else (if p(s[0]) then 1 else 0) + Count(s[1..], p)
  }

  /** `s.filter(p)` */
  function Filter<T>(s: seq<T>, p: T -> bool): (r: seq<T>)
    ensures |r| == Count(s, p)
    ensures forall i :: 0 <= i < |r| ==> r[i] in s && p(r[i])
    ensures forall i :: 0 <= i < |s| && p(s[i]) ==> s[i] in r
  {
    if s == [] then []
    else if p(s[0]) then [s[0]] + Filter(s[1..], p)
    else Filter(s[1..], p)
  }

  /** Filtering keeps the original order: it distributes over concatenation. */
  lemma {:induction false} FilterAppend<T>(a: seq<T>, b: seq<T>, p: T -> bool)
    ensures Filter(a + b, p) == Filter(a, p) + Filter(b, p)
  {
    if a != [] {
      assert (a + b)[0] == a[0];
      assert (a + b)[1..] == a[1..] + b;
      FilterAppend(a[1..], b, p);
      if p(a[0]) {
        calc {
          Filter(a + b, p);
          [a[0]] + Filter(a[1..] + b, p);
          [a[0]] + (Filter(a[1..], p) + Filter(b, p));
          ([a[0]] + Filter(a[1..], p)) + Filter(b, p);
          Filter(a, p) + Filter(b, p);
        }
      } else {
        calc {
          Filter(a + b, p);
          Filter(a[1..] + b, p);
          Filter(a[1..], p) + Filter(b, p);
          Filter(a, p) + Filter(b, p);
        }
      }
    } else {
      assert a + b == b;
    }
  }

  /** Counting and filtering agree on concatenations too. */
  lemma {:induction false} CountAppend<T>(a: seq<T>, b: seq<T>, p: T -> bool)
    ensures Count(a + b, p) == Count(a, p) + Count(b, p)
  {
    FilterAppend(a, b, p);
  }

  /** A weaker test never counts more elements than a stronger one. */
  lemma {:induction false} CountMonotone<T>(s: seq<T>, p: T -> bool, q: T -> bool)
    requires forall x :: p(x) ==> q(x)
    ensures Count(s, p) <= Count(s, q)
  {
    if s != [] {
      CountMonotone(s[1..], p, q);
    }
  }

  /** The elements a test accepts and the ones it rejects add up to all. */
  lemma {:induction false} CountComplement<T>(s: seq<T>, p: T -> bool, q: T -> bool)
    requires forall x :: q(x) == !p(x)
    ensures Count(s, p) + Count(s, q) == |s|
  {
    if s != [] {
      CountComplement(s[1..], p, q);
    }
  }

  /** Two tests count the same when they agree on every element of `s`. */
  lemma {:induction false} CountCongruent<T>(s: seq<T>, p: T -> bool, q: T -> bool)
    requires forall i :: 0 <= i < |s| ==> p(s[i]) == q(s[i])
    ensures Count(s, p) == Count(s, q)
  {
    if s != [] {
      CountCongruent(s[1..], p, q);
    }
  }

  /** Counting after a filter is counting the conjunction. */
  lemma {:induction false} CountOfFilter<T>(s: seq<T>, p: T -> bool, q: T -> bool, pq: T -> bool)
    requires forall x :: pq(x) == (p(x) && q(x))
    ensures Count(Filter(s, p), q) == Count(s, pq)
  {
    if s != [] {
      CountOfFilter(s[1..], p, q, pq);
      if p(s[0]) {
        assert Filter(s, p) == [s[0]] + Filter(s[1..], p);
        assert Count(Filter(s, p), q) == (if q(s[0]) then 1 else 0) + Count(Filter(s[1..], p), q) by {
          assert ([s[0]] + Filter(s[1..], p))[1..] == Filter(s[1..], p);
        }
      }
    }
  }
}

=== FILE: dialpad.dfy ===
/** The dialpad: a digit buffer edited by the twelve keys and a delete
    key, and one action button that dials the buffer when the phone is idle
    or has just ended a call and hangs up otherwise. */
module Dialpad {
  import opened Common
  import SipCall

  /** The key grid, row by row. */
  const DialKeys: seq<string> := ["1", "2", "3", "4", "5", "6", "7", "8", "9", "*", "0", "#"]

  predicate IsDialChar(c: char) {
    '0' <= c <= '9' || c == '*' || c == '#'
  }

  /** Every character is one the keys can produce. */
  predicate Dialable(s: string) {
    forall i :: 0 <= i < |s| ==> IsDialChar(s[i])
  }

  /** The grid has twelve keys, each one dial character. */
  lemma DialKeysAreDialChars()
    ensures |DialKeys| == 12
    ensures forall k :: 0 <= k < |DialKeys| ==> |DialKeys[k]| == 1 && IsDialChar(DialKeys[k][0])
  {
  }

  /** Every dial character has its key. */
  lemma EveryDialCharHasKey(c: char)
    requires IsDialChar(c)
    ensures [c] in DialKeys
  {
    if c == '0' { assert DialKeys[10] == [c]; }
    else if c == '*' { assert DialKeys[9] == [c]; }
    else if c == '#' { assert DialKeys[11] == [c]; }
    else { assert DialKeys[c as int - '1' as int] == [c]; }
  }

  /** `handleDigit`: the digit goes at the end of the number. */
  function HandleDigit(number: string, digit: string): (r: string)
    ensures |r| == |number| + |digit|
    ensures r[..|number|] == number && r[|number|..] == digit
  {
    number + digit
  }

  /** `handleDelete`: `slice(0, -1)` drops the last character and leaves an
      empty number empty. */
  function HandleDelete(number: string): (r: string)
    ensures number == [] ==> r == []
    ensures number != [] ==> r + [number[|number| - 1]] == number
  {
    if number == [] then [] else number[..|number| - 1]
  }

  /** Deleting undoes a key press. */
  lemma DeleteUndoesKey(number: string, k: nat)
    requires k < |DialKeys|
    ensures HandleDelete(HandleDigit(number, DialKeys[k])) == number
  {
    DialKeysAreDialChars();
    var r := HandleDigit(number, DialKeys[k]);
    assert r[..|r| - 1] == r[..|number|];
  }

  /** The number typed by a sequence of key presses on an empty display. */
  function Typed(presses: seq<nat>): string
    requires forall i :: 0 <= i < |presses| ==> presses[i] < |DialKeys|
  {
    if presses == [] then ""
    else HandleDigit(Typed(presses[..|presses| - 1]), DialKeys[presses[|presses| - 1]])
  }

  /** A key press and a delete keep a number dialable. */
  lemma EditKeepsDialable(number: string, k: nat)
    requires Dialable(number) && k < |DialKeys|
    ensures Dialable(HandleDigit(number, DialKeys[k])) && |HandleDigit(number, DialKeys[k])| == |number| + 1
    ensures Dialable(HandleDelete(number))
  {
    DialKeysAreDialChars();
    var key := DialKeys[k];
    var r := HandleDigit(number, key);
    forall i | 0 <= i < |r| ensures IsDialChar(r[i]) {
      if i < |number| { assert r[i] == number[i]; } else { assert r[i] == key[0]; }
    }
  }

  /** Only dial characters can be entered: whatever keys are pressed, the
      number holds one dial character per press, and deleting keeps it so. */
  lemma {:induction false} TypedIsDialable(presses: seq<nat>)
    requires forall i :: 0 <= i < |presses| ==> presses[i] < |DialKeys|
    ensures Dialable(Typed(presses)) && |Typed(presses)| == |presses|
    ensures Dialable(HandleDelete(Typed(presses)))
  {
    if presses == [] {
      EditKeepsDialable("", 0);
    } else {
      var prefix := presses[..|presses| - 1];
      TypedIsDialable(prefix);
      EditKeepsDialable(Typed(prefix), presses[|presses| - 1]);
      EditKeepsDialable(Typed(presses), 0);
    }
  }

  /** What the action button asks of the phone. */
  datatype CallRequest = Dial(number: string) | Hangup

  /** `handleCall`: dials the number, unchanged, only when it is not empty. */
  function HandleCall(number: string): (r: Option<CallRequest>)
    ensures r.Some? <==> number != ""
    ensures r.Some? ==> r.value == Dial(number)
  {
    if number != "" then Some(Dial(number)) else None
  }

  datatype ActionButton = CallButton | HangupButton

  /** The call button shows when the phone is idle or ended, the hang-up
      button in every other state. */
  function ButtonFor(status: SipCall.CallStatus): (b: ActionButton)
    ensures b == CallButton <==> status == SipCall.Idle || status == SipCall.Ended
  {
    if status == SipCall.Idle || status == SipCall.Ended then CallButton else HangupButton
  }

  /** Pressing the action button: the call button dials (nothing for an
      empty number), the hang-up button asks to hang up whatever is typed. */
  function PressAction(status: SipCall.CallStatus, number: string): (r: Option<CallRequest>)
    ensures ButtonFor(status) == CallButton ==> r == HandleCall(number)
    ensures ButtonFor(status) == HangupButton ==> r == Some(Hangup)
    ensures r.Some? && r.value.Dial? ==> number != "" && (status == SipCall.Idle || status == SipCall.Ended)
  {
    match ButtonFor(status)
    case CallButton => HandleCall(number)
    case HangupButton => Some(Hangup)
  }
}

=== FILE: messaging_page.dfy ===
/** The agent chat page: the outgoing text is trimmed and refused when
    nothing is left, a send emits the payload and clears the input, received
    messages are appended, and another agent's typing raises the indicator.
    The page is the class `ChatPage`; the socket emits it makes are logged. */
module MessagingPage {
  import opened Common
  import opened Models
  import Relay

  /** The white space and line terminators `String.prototype.trim` removes. */
  predicate IsJsSpace(c: char) {
    || ('\U{9}' <= c <= '\U{D}')
    || c == ' ' || c == '\U{A0}' || c == '\U{1680}'
    || ('\U{2000}' <= c <= '\U{200A}')
    || c == '\U{2028}' || c == '\U{2029}' || c == '\U{202F}' || c == '\U{205F}'
    || c == '\U{3000}' || c == '\U{FEFF}'
  }

  predicate AllSpace(s: string) {
    forall i :: 0 <= i < |s| ==> IsJsSpace(s[i])
  }

  /** The number of leading white-space characters. */
  function LeadingSpaces(s: string): (n: nat)
    ensures n <= |s| && AllSpace(s[..n])
    ensures n < |s| ==> !IsJsSpace(s[n])
  {
    if s == [] || !IsJsSpace(s[0]) then 0
    else
      var n := 1 + LeadingSpaces(s[1..]);
      assert forall i :: 1 <= i < n ==> s[..n][i] == s[1..][..n - 1][i - 1];
      n
  }

  /** The number of trailing white-space characters. */
  function TrailingSpaces(s: string): (n: nat)
    ensures n <= |s| && AllSpace(s[|s| - n..])
    ensures n < |s| ==> !IsJsSpace(s[|s| - n - 1])
  {
    if s == [] || !IsJsSpace(s[|s| - 1]) then 0
    else
      var n := 1 + TrailingSpaces(s[..|s| - 1]);
      assert s[|s| - n..] == s[..|s| - 1][|s| - n..] + [s[|s| - 1]];
      n
  }

  /** `s.trim()`: the part of `s` between its leading and its trailing white
      space. The result neither starts nor ends with white space, and it is
      empty exactly when `s` is all white space. */
  function Trim(s: string): (r: string)
    ensures var a := LeadingSpaces(s);
      && a + |r| <= |s| && r == s[a..a + |r|] && AllSpace(s[a + |r|..])
    ensures r != [] ==> !IsJsSpace(r[0]) && !IsJsSpace(r[|r| - 1])
    ensures r == [] <==> AllSpace(s)
  {
    var a := LeadingSpaces(s);
    var b := TrailingSpaces(s[a..]);
    TrimEnds(s, a, b);
    TrimEmpty(s, a, b);
    s[a..|s| - b]
  }

  /** The trimmed part lies between the leading and the trailing white
      space, and neither of its ends is white space. */
  lemma TrimEnds(s: string, a: nat, b: nat)
    requires a <= |s| && (a < |s| ==> !IsJsSpace(s[a]))
    requires b <= |s| - a && AllSpace(s[a..][|s| - a - b..])
    requires b < |s| - a ==> !IsJsSpace(s[a..][|s| - a - b - 1])
    ensures a <= |s| - b
    ensures AllSpace(s[|s| - b..])
    ensures a < |s| - b ==> !IsJsSpace(s[a]) && !IsJsSpace(s[|s| - b - 1])
  {
    assert s[|s| - b..] == s[a..][|s| - a - b..];
  }

  /** Nothing is left exactly when the text is all white space. */
  lemma TrimEmpty(s: string, a: nat, b: nat)
    requires a <= |s| && AllSpace(s[..a]) && (a < |s| ==> !IsJsSpace(s[a]))
    requires b <= |s| - a && AllSpace(s[a..][|s| - a - b..])
    ensures a == |s| - b <==> AllSpace(s)
  {
    var t := s[a..];
    if a < |s| {
      assert t[0] == s[a];
      assert !AllSpace(t);
      assert t[|t| - |t|..] == t;
    } else {
      assert s[..a] == s;
    }
  }

  /** Trimming twice is trimming once. */
  lemma TrimIdempotent(s: string)
    ensures Trim(Trim(s)) == Trim(s)
  {
    var r := Trim(s);
    if r != [] {
      assert LeadingSpaces(r) == 0;
    }
  }

  /** `localStorage.getItem("username") || "Guest"`. */
  function AgentIdOf(stored: Option<string>): (id: string)
    ensures Truthy(stored) ==> id == stored.value
    ensures !Truthy(stored) ==> id == "Guest"
    ensures id != ""
  {
    if Truthy(stored) then stored.value else "Guest"
  }

  /** The fixed recipient of every message the page sends. */
  const Recipient: string := "1002"

  /** The `sendMessage` payload. */
  datatype OutgoingMessage = OutgoingMessage(from: string, to: string, message: string, timestamp: string)

  class ChatPage {
    const agentId: string
    var messages: seq<Message>
    var newMessage: string
    var isTyping: bool
    /** the `sendMessage` emits, oldest first */
    var sent: seq<OutgoingMessage>

    constructor (storedUsername: Option<string>)
      ensures agentId == AgentIdOf(storedUsername)
      ensures messages == [] && newMessage == "" && !isTyping && sent == []
    {
      agentId := AgentIdOf(storedUsername);
      messages := [];
      newMessage := "";
      isTyping := false;
      sent := [];
    }

    /** The text area's `onChange`. */
    method SetNewMessage(text: string)
      modifies this`newMessage
      ensures newMessage == text
    {
      newMessage := text;
    }

    /** `handleSend`: text that is empty once trimmed sends nothing and
        keeps the input; otherwise the trimmed text goes to the fixed
        recipient from this agent, and the input is cleared. */
    method HandleSend(nowIso: string)
      modifies this`newMessage, this`sent
      ensures Trim(old(newMessage)) == "" ==> newMessage == old(newMessage) && sent == old(sent)
      ensures Trim(old(newMessage)) != "" ==>
        && sent == old(sent) + [OutgoingMessage(agentId, Recipient, Trim(old(newMessage)), nowIso)]
        && newMessage == ""
    {
      var trimmedMessage := Trim(newMessage);
      if trimmedMessage == "" {
        return;
      }
      sent := sent + [OutgoingMessage(agentId, Recipient, trimmedMessage, nowIso)];
      newMessage := "";
    }

    /** `handleKeyDown`: Enter without Shift sends (and so, on blank text,
        changes nothing); any other key does nothing here. */
    method HandleKeyDown(key: string, shiftKey: bool, nowIso: string)
      modifies this`newMessage, this`sent
      ensures !(key == "Enter" && !shiftKey) ==> newMessage == old(newMessage) && sent == old(sent)
      ensures key == "Enter" && !shiftKey && Trim(old(newMessage)) == "" ==>
        newMessage == old(newMessage) && sent == old(sent)
      ensures key == "Enter" && !shiftKey && Trim(old(newMessage)) != "" ==>
        sent == old(sent) + [OutgoingMessage(agentId, Recipient, Trim(old(newMessage)), nowIso)] && newMessage == ""
    {
      if key == "Enter" && !shiftKey {
        HandleSend(nowIso);
      }
    }

    /** `receiveMessage`: the message is appended; the earlier ones keep
        their order. */
    method ReceiveMessage(msg: Message)
      modifies this`messages
      ensures messages == old(messages) + [msg]
      ensures messages[..|old(messages)|] == old(messages) && messages[|messages| - 1] == msg
    {
      messages := messages + [msg];
    }

    /** The history fetch: on success the loaded list replaces the messages;
        on failure they are kept. */
    method LoadHistory(response: Option<seq<Message>>)
      modifies this`messages
      ensures response.Some? ==> messages == response.value
      ensures response.None? ==> messages == old(messages)
    {
      if response.Some? {
        messages := response.value;
      }
    }

    /** `typing`: only another agent's typing raises the indicator. */
    method OnTyping(from: string)
      modifies this`isTyping
      ensures from != agentId ==> isTyping
      ensures from == agentId ==> isTyping == old(isTyping)
    {
      if from != agentId {
        isTyping := true;
      }
    }

    /** `stopTyping` clears the indicator. */
    method OnStopTyping()
      modifies this`isTyping
      ensures !isTyping
    {
      isTyping := false;
    }
  }

  /** What the page sends is always storable: a connection that carries
      the page's agent id turns the payload into a stored channel message
      to the fixed recipient with exactly the trimmed text. */
  lemma SentPayloadIsStorable(agentId: string, text: string, now: int, id: nat)
    requires agentId != "" && Trim(text) != ""
    ensures var stored := CreateMessage(Relay.ChannelDraft(agentId, Some(Recipient), Some(Trim(text)), now), id);
      && stored.Some?
      && stored.value.from == agentId && stored.value.to == Recipient
      && stored.value.message == Trim(text) && stored.value.source == DefaultSource
  {
  }
}

=== FILE: models.dfy ===
/** The persisted records of the backend (the Mongoose schemas User, Call and
    Message), with their enumerations and defaults. Timestamps are
    milliseconds since the epoch. */
module Models {
  import opened Common

  /** Agent presence values. The schema enumerates the four values below, but
      a status written through `findOneAndUpdate` is not validated, so a stored
      status is any string. */
  const Available: string := "available"
  const Busy: string := "busy"
  const Away: string := "away"
  const Offline: string := "offline"

  /** The `status` enumeration of the User schema. */
  predicate ValidStatus(s: string) {
    s == Available || s == Busy || s == Away || s == Offline
  }

  datatype Role = Admin | Agent

  /** A password as stored: the bcrypt hash of the submitted text (salt and
      hashing are abstracted). */
  datatype Password = Hashed(plain: string)

  datatype User = User(
    id: nat,
    username: string,
    password: Password,
    email: string,
    extension: string,
    status: string,
    role: Role,
    createdAt: int)

  predicate IsAgent(u: User) {
    u.role == Agent
  }

  /** Call record status and direction. */
  datatype CallStatus = Completed | InProgress | Missed | Voicemail
  datatype Direction = Inbound | Outbound

  datatype Call = Call(
    caller: string,
    agent: string,
    duration: string,
    status: CallStatus,
    direction: Direction,
    timestamp: int)

  /** A stored chat message. `source` defaults to "web"; the telephony path
      writes "sip". */
  datatype Message = Message(
    id: nat,
    from: string,
    to: string,
    message: string,
    timestamp: int,
    read: bool,
    edited: bool,
    source: string)

  const DefaultSource: string := "web"

  /** The fields handed to `Message.create`; absent ones are `None`. */
  datatype MessageDraft = MessageDraft(
    from: Option<string>,
    to: Option<string>,
    message: Option<string>,
    timestamp: int,
    source: Option<string>)

  /** `Message.create` validation and defaults: `from`, `to` and `message` are
      required (a missing or empty string fails), `read` and `edited` start
      false, `source` defaults to "web". The new record gets `id`. */
  function CreateMessage(d: MessageDraft, id: nat): (r: Option<Message>)
    ensures r.Some? <==> Truthy(d.from) && Truthy(d.to) && Truthy(d.message)
    ensures r.Some? ==>
      && r.value.id == id && r.value.from == d.from.value
      && r.value.to == d.to.value && r.value.message == d.message.value
      && r.value.timestamp == d.timestamp && !r.value.read && !r.value.edited
      && r.value.source == (if d.source.Some? then d.source.value else DefaultSource)
  {
    if Truthy(d.from) && Truthy(d.to) && Truthy(d.message) then
      Some(Message(id, d.from.value, d.to.value, d.message.value, d.timestamp, false, false,
                   if d.source.Some? then d.source.value else DefaultSource))
    else None
  }
}

=== FILE: relay.dfy ===
/** The real-time backend: Socket.IO connections of agents, status updates,
    the chat relay, and the telephony path on which text messages arrive as
    Asterisk `MessageEntry` manager events.

    Persistence is an append-only sequence of messages whose ids are their
    positions, the User collection is seen as a map from username to status,
    and everything the server emits (to all clients, to a room, to one
    socket) is appended to an event log, as is every AMI action it issues.
    Each handler runs as one atomic step; whether a database write succeeds
    is a parameter. */
module Relay {
  import opened Common
  import opened Models
  import Sorting

  // ---------------------------------------------------------------------
  // Extension extraction: the user part of `sip:<digits>@` (the regular
  // expression /sip:(\d+)@/, first match).
  // ---------------------------------------------------------------------

  predicate IsDigit(c: char) {
    '0' <= c <= '9'
  }

  predicate AllDigits(s: string) {
    forall k :: 0 <= k < |s| ==> IsDigit(s[k])
  }

  /** The length of the run of digits that starts at position `j`. */
  function DigitRun(s: string, j: nat): (n: nat)
    requires j <= |s|
    ensures j + n <= |s|
    ensures AllDigits(s[j..j + n])
    ensures j + n == |s| || !IsDigit(s[j + n])
    decreases |s| - j
  {
    if j < |s| && IsDigit(s[j]) then
      var n := 1 + DigitRun(s, j + 1);
      assert s[j..j + n] == [s[j]] + s[j + 1..j + n];
      n
    else 0
  }

  /** The `sip:` URI form with its user part `d`. */
  function SipUriPart(d: string): string {
    "sip:" + d + "@"
  }

  /** The regular expression matched at position `i`: `sip:`, then one or
      more digits (all of them, the quantifier is greedy), then `@`. */
  function MatchAt(s: string, i: nat): (r: Option<string>)
    ensures r.Some? ==> |r.value| > 0 && AllDigits(r.value) && OccursAt(s, SipUriPart(r.value), i)
  {
    if i + 4 <= |s| && s[i..i + 4] == "sip:" then
      var n := DigitRun(s, i + 4);
      if n > 0 && i + 4 + n < |s| && s[i + 4 + n] == '@' then
        var d := s[i + 4..i + 4 + n];
        assert s[i..i + |SipUriPart(d)|] == s[i..i + 4] + d + [s[i + 4 + n]];
        Some(d)
      else None
    else None
  }

  /** Every occurrence of `sip:<digits>@` is a match of the expression. */
  lemma MatchAtComplete(s: string, i: nat, d: string)
    requires |d| > 0 && AllDigits(d) && OccursAt(s, SipUriPart(d), i)
    ensures MatchAt(s, i) == Some(d)
  {
    UriParts(s, i, d);
    DigitRunExact(s, i + 4, |d|);
    assert s[i + 4..i + 4 + DigitRun(s, i + 4)] == d;
  }

  /** An occurrence of the URI form, piece by piece. */
  lemma UriParts(s: string, i: nat, d: string)
    requires OccursAt(s, SipUriPart(d), i)
    ensures i + 4 + |d| < |s|
    ensures s[i..i + 4] == "sip:" && s[i + 4..i + 4 + |d|] == d && s[i + 4 + |d|] == '@'
  {
    var u := SipUriPart(d);
    var w := s[i..i + |u|];
    assert w == u;
    assert u == "sip:" + (d + "@");
    assert (d + "@")[..|d|] == d && (d + "@")[|d|] == '@';
    assert u[..4] == "sip:" && u[4..] == d + "@";
    assert u[4..4 + |d|] == (d + "@")[..|d|];
    assert u[4 + |d|] == (d + "@")[|d|];
    SliceOfSlice(s, i, i + |u|, 0, 4);
    SliceOfSlice(s, i, i + |u|, 4, 4 + |d|);
    assert s[i + 4 + |d|] == w[4 + |d|];
  }

  lemma SliceOfSlice(s: string, lo: nat, hi: nat, x: nat, y: nat)
    requires lo <= hi <= |s| && x <= y <= hi - lo
    ensures s[lo..hi][x..y] == s[lo + x..lo + y]
  {
    forall k | 0 <= k < y - x ensures s[lo..hi][x..y][k] == s[lo + x..lo + y][k] {
      assert s[lo..hi][x..y][k] == s[lo + x + k];
    }
  }

  lemma {:induction false} DigitRunExact(s: string, j: nat, n: nat)
    requires j + n < |s| && AllDigits(s[j..j + n]) && !IsDigit(s[j + n])
    ensures DigitRun(s, j) == n
    decreases n
  {
    if n > 0 {
      assert IsDigit(s[j..j + n][0]);
      assert s[j + 1..j + n] == s[j..j + n][1..];
      DigitRunExact(s, j + 1, n - 1);
    }
  }

  /** The leftmost match at or after position `from`. */
  function FirstMatch(s: string, from: nat): (r: Option<string>)
    ensures r.Some? ==> exists i: nat :: from <= i && MatchAt(s, i) == r
    ensures r.None? ==> forall i: nat :: from <= i ==> MatchAt(s, i).None?
    decreases |s| - from
  {
    if from >= |s| then
      assert forall i: nat :: from <= i ==> MatchAt(s, i).None?;
      None
    else if MatchAt(s, from).Some? then MatchAt(s, from)
    else FirstMatch(s, from + 1)
  }

  /** `addr?.match(/sip:(\d+)@/)?.[1] || addr`: the digits of the first
      `sip:<digits>@` in the address; an address without one, and an absent
      address, come back unchanged. */
  function ExtractExtension(addr: Option<string>): (r: Option<string>)
    ensures addr.None? ==> r.None?
    ensures addr.Some? ==> r.Some?
    ensures addr.Some? && (forall i: nat :: MatchAt(addr.value, i).None?) ==> r == addr
    ensures addr.Some? && r != addr ==>
      && |r.value| > 0 && AllDigits(r.value)
      && exists i: nat :: OccursAt(addr.value, SipUriPart(r.value), i)
                     && forall j: nat :: j < i ==> MatchAt(addr.value, j).None?
    ensures forall i: nat ::
      (addr.Some? && MatchAt(addr.value, i).Some? && forall j: nat :: j < i ==> MatchAt(addr.value, j).None?) ==>
      r == MatchAt(addr.value, i)
  {
    match addr
    case None => None
    case Some(s) =>
      assert forall i: nat :: MatchAt(s, i).Some? && (forall j: nat :: j < i ==> MatchAt(s, j).None?) ==>
                              FirstMatch(s, 0) == MatchAt(s, i) by {
        forall i: nat | MatchAt(s, i).Some? && (forall j: nat :: j < i ==> MatchAt(s, j).None?)
          ensures FirstMatch(s, 0) == MatchAt(s, i)
        {
          FirstMatchSkips(s, 0, i);
        }
      }
      match FirstMatch(s, 0)
      case Some(d) =>
        FirstMatchIsLeftmost(s, 0);
        Some(d)
      case None => Some(s)
  }

  lemma {:induction false} FirstMatchIsLeftmost(s: string, from: nat)
    requires FirstMatch(s, from).Some?
    ensures exists i: nat :: from <= i && MatchAt(s, i) == FirstMatch(s, from)
                        && forall j: nat :: from <= j < i ==> MatchAt(s, j).None?
    decreases |s| - from
  {
    if MatchAt(s, from).Some? {
      assert from < |s|;
      assert FirstMatch(s, from) == MatchAt(s, from);
    } else {
      assert from < |s|;
      assert FirstMatch(s, from) == FirstMatch(s, from + 1);
      FirstMatchIsLeftmost(s, from + 1);
      var i: nat :| from + 1 <= i && MatchAt(s, i) == FirstMatch(s, from + 1)
                    && forall j: nat :: from + 1 <= j < i ==> MatchAt(s, j).None?;
      assert forall j: nat :: from <= j < i ==> MatchAt(s, j).None?;
    }
  }

  /** The plain form `sip:<digits>@host` yields the digits. */
  lemma ExtractFromSipUri(d: string, host: string)
    requires |d| > 0 && AllDigits(d)
    ensures ExtractExtension(Some(SipUriPart(d) + host)) == Some(d)
  {
    var s := SipUriPart(d) + host;
    assert s[0..|SipUriPart(d)|] == SipUriPart(d);
    MatchAtComplete(s, 0, d);
  }

  /** With a display name in front (`"1001" <sip:1001@host>`), the digits
      are found as long as the text before the URI holds no `s`. */
  lemma ExtractFromNamedUri(name: string, d: string, host: string)
    requires |d| > 0 && AllDigits(d)
    requires forall k :: 0 <= k < |name| ==> name[k] != 's'
    ensures ExtractExtension(Some(name + SipUriPart(d) + host)) == Some(d)
  {
    var s := name + SipUriPart(d) + host;
    forall j: nat | j < |name| ensures MatchAt(s, j).None? {
      assert s[j] == name[j];
      assert j + 4 <= |s| ==> s[j..j + 4][0] == s[j];
    }
    assert s[|name|..|name| + |SipUriPart(d)|] == SipUriPart(d);
    MatchAtComplete(s, |name|, d);
    FirstMatchSkips(s, 0, |name|);
  }

  lemma {:induction false} FirstMatchSkips(s: string, from: nat, i: nat)
    requires from <= i && MatchAt(s, i).Some?
    requires forall j: nat :: from <= j < i ==> MatchAt(s, j).None?
    ensures FirstMatch(s, from) == MatchAt(s, i)
    decreases i - from
  {
    if from < i {
      FirstMatchSkips(s, from + 1, i);
    }
  }

  /** An address that is already a bare extension comes back unchanged. */
  lemma ExtractFromBareExtension(d: string)
    requires AllDigits(d)
    ensures ExtractExtension(Some(d)) == Some(d)
  {
    forall i: nat ensures MatchAt(d, i).None? {
      if i + 4 <= |d| {
        assert d[i..i + 4][0] == d[i];
      }
    }
  }

  // ---------------------------------------------------------------------
  // Records, history and the event log
  // ---------------------------------------------------------------------

  /** The record stored for a telephony `MessageEntry`. */
  function SipDraft(from: Option<string>, to: Option<string>, body: Option<string>, now: int): (d: MessageDraft)
    ensures d.from == ExtractExtension(from) && d.to == ExtractExtension(to)
    ensures d.message == body && d.timestamp == now && d.source == Some("sip")
  {
    MessageDraft(ExtractExtension(from), ExtractExtension(to), body, now, Some("sip"))
  }

  /** The record stored for a channel `sendMessage`: the sender is the
      connection's agent, whatever the client sent, and the source is left
      to its default. */
  function ChannelDraft(agentId: string, to: Option<string>, message: Option<string>, now: int): (d: MessageDraft)
    ensures d.from == Some(agentId) && d.to == to && d.message == message
    ensures d.timestamp == now && d.source.None?
  {
    MessageDraft(Some(agentId), to, message, now, None)
  }

  predicate Involves(m: Message, agentId: string) {
    m.from == agentId || m.to == agentId
  }

  /** The history sent on connection: the agent's messages (sent or
      received) in ascending timestamp order. */
  function History(messages: seq<Message>, agentId: string): (r: seq<Message>)
    ensures Sorting.SortedBy(r, (m: Message) => m.timestamp)
    ensures multiset(r) == multiset(Filter(messages, (m: Message) => Involves(m, agentId)))
  {
    Sorting.SortBy(Filter(messages, (m: Message) => Involves(m, agentId)), (m: Message) => m.timestamp)
  }

  /** The history holds exactly the messages the agent sent or received. */
  lemma HistoryMembers(messages: seq<Message>, agentId: string, m: Message)
    ensures m in History(messages, agentId) <==> m in messages && Involves(m, agentId)
  {
    var f := Filter(messages, (x: Message) => Involves(x, agentId));
    var h := History(messages, agentId);
    assert m in h <==> m in multiset(h);
    assert m in f <==> m in multiset(f);
    if m in messages && Involves(m, agentId) {
      var k :| 0 <= k < |messages| && messages[k] == m;
    }
  }

  datatype ManagerEvent = ManagerEvent(event: string, from: Option<string>, to: Option<string>, body: Option<string>)

  datatype Payload =
    | MessagePayload(msg: Message)
    | StatusPayload(username: string, status: string)
    | HistoryPayload(msgs: seq<Message>)
    | ManagerPayload(managerEvent: ManagerEvent)

  datatype Emit =
    | ToAll(name: string, payload: Payload)
    | ToRoom(room: string, name: string, payload: Payload)
    | ToSocket(socket: nat, name: string, payload: Payload)

  /** An AMI `MessageSend` action. */
  datatype AmiAction = MessageSend(to: string, from: string, body: string)

  class Server {
    /** `AMI_HOST`; empty when it is not configured */
    const amiHost: string
    var messages: seq<Message>
    /** the User collection: username to stored status */
    var statuses: map<string, string>
    /** connections that passed the `agentId` guard, with the agent (and
        room) each one joined */
    var sockets: map<nat, string>
    var nextSocket: nat
    var emits: seq<Emit>
    var amiActions: seq<AmiAction>

    /** Message ids are fresh (each is the record's position) and socket
        numbers are never reused. */
    ghost predicate Valid()
      reads this
    {
      && (forall i :: 0 <= i < |messages| ==> messages[i].id == i)
      && (forall s :: s in sockets ==> s < nextSocket)
    }

    constructor (amiHost: string, statuses: map<string, string>)
      ensures Valid()
      ensures this.amiHost == amiHost && this.statuses == statuses
      ensures messages == [] && sockets == map[] && emits == [] && amiActions == []
    {
      this.amiHost := amiHost;
      this.statuses := statuses;
      messages := [];
      sockets := map[];
      nextSocket := 0;
      emits := [];
      amiActions := [];
    }

    /** Every manager event is broadcast as `asterisk-event`. A
        `MessageEntry` is also stored with source "sip" and the extensions
        of its addresses, and the stored record goes to the recipient's room
        only; when the record cannot be saved nothing else happens. */
    method OnManagerEvent(e: ManagerEvent, now: int, saveOk: bool)
      requires Valid()
      modifies this`messages, this`emits
      ensures Valid()
      ensures var stored := CreateMessage(SipDraft(e.from, e.to, e.body, now), |old(messages)|);
        if e.event == "MessageEntry" && saveOk && stored.Some? then
          && messages == old(messages) + [stored.value]
          && stored.value.source == "sip"
          && emits == old(emits) + [ToAll("asterisk-event", ManagerPayload(e)),
                                    ToRoom(stored.value.to, "receiveMessage", MessagePayload(stored.value))]
        else
          messages == old(messages) && emits == old(emits) + [ToAll("asterisk-event", ManagerPayload(e))]
    {
      emits := emits + [ToAll("asterisk-event", ManagerPayload(e))];
      if e.event == "MessageEntry" {
        var stored := CreateMessage(SipDraft(e.from, e.to, e.body, now), |messages|);
        if saveOk && stored.Some? {
          messages := messages + [stored.value];
          emits := emits + [ToRoom(stored.value.to, "receiveMessage", MessagePayload(stored.value))];
        }
      }
    }

    /** A new connection. Without an `agentId` in its handshake it is
        ignored: it joins no room and gets no handlers. Otherwise it joins
        the agent's room, and the history query settles as `history`: when
        it resolves the agent's history is sent to the socket; a rejection
        has no handler, so nothing is sent, but the connection stays
        registered. */
    method Connect(agentId: Option<string>, history: Settled) returns (socket: nat)
      requires Valid()
      modifies this`sockets, this`nextSocket, this`emits
      ensures Valid()
      ensures socket == old(nextSocket) && socket !in old(sockets)
      ensures !Truthy(agentId) ==> sockets == old(sockets) && emits == old(emits)
      ensures Truthy(agentId) ==> sockets == old(sockets)[socket := agentId.value]
      ensures Truthy(agentId) && history.Rejected? ==> emits == old(emits)
      ensures Truthy(agentId) && history.Resolved? ==>
        emits == old(emits) + [ToSocket(socket, "loadMessages", HistoryPayload(History(messages, agentId.value)))]
    {
      socket := nextSocket;
      nextSocket := nextSocket + 1;
      if !Truthy(agentId) {
        return;
      }
      sockets := sockets[socket := agentId.value];
      if history.Resolved? {
        emits := emits + [ToSocket(socket, "loadMessages", HistoryPayload(History(messages, agentId.value)))];
      }
    }

    /** `updateStatus`: the stored status of the connection's agent is
        written first (if such a user exists), then `{username, status}` is
        broadcast to everyone. A failed write broadcasts nothing. */
    method UpdateStatus(socket: nat, status: string, writeOk: bool)
      requires Valid()
      modifies this`statuses, this`emits
      ensures Valid()
      ensures socket !in sockets || !writeOk ==> statuses == old(statuses) && emits == old(emits)
      ensures socket in sockets && writeOk ==>
        && statuses == (if sockets[socket] in old(statuses) then old(statuses)[sockets[socket] := status]
                        else old(statuses))
        && emits == old(emits) + [ToAll("agent:status_update", StatusPayload(sockets[socket], status))]
    {
      if socket !in sockets || !writeOk {
        return;
      }
      var agentId := sockets[socket];
      if agentId in statuses {
        statuses := statuses[agentId := status];
      }
      emits := emits + [ToAll("agent:status_update", StatusPayload(agentId, status))];
    }

    /** `sendMessage`: stored with the connection's agent as sender; the
        same stored record goes to the recipient's room and back to the
        sender's socket; with `AMI_HOST` configured a SIP MESSAGE to
        `pjsip:<to>` is also requested. A record that cannot be saved is
        neither emitted nor relayed. */
    method SendMessage(socket: nat, to: Option<string>, message: Option<string>, now: int, saveOk: bool)
      requires Valid()
      modifies this`messages, this`emits, this`amiActions
      ensures Valid()
      ensures socket !in sockets ==> unchanged(this)
      ensures socket in sockets ==>
        var agentId := sockets[socket];
        var stored := CreateMessage(ChannelDraft(agentId, to, message, now), |old(messages)|);
        if saveOk && stored.Some? then
          && stored.value.from == agentId
          && messages == old(messages) + [stored.value]
          && emits == old(emits) + [ToRoom(stored.value.to, "receiveMessage", MessagePayload(stored.value)),
                                    ToSocket(socket, "receiveMessage", MessagePayload(stored.value))]
          && amiActions == old(amiActions) +
               (if amiHost != "" then
                  [MessageSend("pjsip:" + stored.value.to,
                               "\"" + agentId + "\" <sip:" + agentId + "@" + amiHost + ">",
                               stored.value.message)]
                else [])
        else
          messages == old(messages) && emits == old(emits) && amiActions == old(amiActions)
    {
      if socket !in sockets {
        return;
      }
      var agentId := sockets[socket];
      var stored := CreateMessage(ChannelDraft(agentId, to, message, now), |messages|);
      if !saveOk || stored.None? {
        return;
      }
      var m := stored.value;
      messages := messages + [m];
      emits := emits + [ToRoom(m.to, "receiveMessage", MessagePayload(m)),
                        ToSocket(socket, "receiveMessage", MessagePayload(m))];
      if amiHost != "" {
        amiActions := amiActions + [MessageSend("pjsip:" + m.to,
                                                "\"" + agentId + "\" <sip:" + agentId + "@" + amiHost + ">",
                                                m.message)];
      }
    }

    /** A disconnect only drops the connection: the stored status is not
        touched and nothing is emitted. */
    method Disconnect(socket: nat)
      requires Valid()
      modifies this`sockets
      ensures Valid()
      ensures sockets == old(sockets) - {socket}
    {
      sockets := sockets - {socket};
    }
  }

  /** A connection without an agent id never relays anything. */
  method AnonymousClientScenario() returns (anonStored: nat, anonEmitted: nat, anonStatus: string,
                                             agentFrom: string, agentSource: string, relayedTo: string)
    ensures anonStored == 0 && anonEmitted == 0 && anonStatus == Available
    ensures agentFrom == "1001" && agentSource == "web" && relayedTo == "pjsip:1002"
  {
    var server := new Server("10.0.0.5", map["1001" := Available]);
    var anon := server.Connect(None, Resolved);
    server.SendMessage(anon, Some("1002"), Some("hello"), 1000, true);
    server.UpdateStatus(anon, Busy, true);
    anonStored, anonEmitted, anonStatus := |server.messages|, |server.emits|, server.statuses["1001"];

    var agent := server.Connect(Some("1001"), Resolved);
    server.SendMessage(agent, Some("1002"), Some("hello"), 2000, true);
    agentFrom, agentSource := server.messages[0].from, server.messages[0].source;
    relayedTo := server.amiActions[0].to;
  }
}

=== FILE: settings_page.dfy ===
/** The admin settings page: its state is a map from category to value,
    changed only by functional updates (edit one key, apply a broadcast
    patch, merge a fetched copy), plus the request a save sends. */
module SettingsPage {
  import opened Common
  import opened SettingsRoutes
  import AuthMiddleware

  /** The page state that the handlers touch. */
  datatype Page = Page(activeTab: string, settings: map<string, Value>, loading: bool, saved: bool)

  /** The page starts on the general tab with the built-in settings (the
      same table as the server's defaults), loading. */
  function InitialPage(): Page {
    Page("general", Defaults(), true, false)
  }

  /** `m[k]`, which is `undefined` for a missing key. */
  function Get(m: map<string, Value>, k: string): (r: Option<Value>)
    ensures r.Some? <==> k in m
    ensures k in m ==> r.value == m[k]
  {
    if k in m then Some(m[k]) else None
  }

  /** JavaScript truthiness of a JSON value. */
  predicate JsTruthy(v: Value) {
    match v
    case Null => false
    case Bool(b) => b
    case Num(n) => n != 0
    case Str(s) => s != ""
    case List(_) => true
    case Obj(_) => true
  }

  /** The properties an object spread `...(v || {})` copies: the fields of
      an object, none for anything else. */
  function SpreadFields(v: Option<Value>): (f: map<string, Value>)
    ensures v.Some? && v.value.Obj? ==> f == v.value.fields
    ensures !(v.Some? && v.value.Obj?) ==> f == map[]
  {
    if v.Some? && v.value.Obj? then v.value.fields else map[]
  }

  /** `updateSetting(category, key, value)`: the category becomes an object
      holding `value` under `key` and its other keys as before; every other
      category and the rest of the page are unchanged. */
  function UpdateSetting(p: Page, category: string, key: string, value: Value): (r: Page)
    ensures r.activeTab == p.activeTab && r.loading == p.loading && r.saved == p.saved
    ensures r.settings.Keys == p.settings.Keys + {category}
    ensures forall c :: c in p.settings && c != category ==> r.settings[c] == p.settings[c]
    ensures r.settings[category].Obj?
    ensures var old_ := SpreadFields(Get(p.settings, category));
      && r.settings[category].fields.Keys == old_.Keys + {key}
      && r.settings[category].fields[key] == value
      && forall k :: k in old_ && k != key ==> r.settings[category].fields[k] == old_[k]
  {
    var fields := SpreadFields(Get(p.settings, category));
    p.(settings := p.settings[category := Obj(fields[key := value])])
  }

  /** The `settings:updated` event as the page receives it. */
  datatype UpdateEvent = UpdateEvent(category: Option<string>, settings: Option<Value>)

  /** The guard `data && data.category && data.settings`. */
  predicate Acceptable(data: Option<UpdateEvent>) {
    && data.Some?
    && Truthy(data.value.category)
    && data.value.settings.Some? && JsTruthy(data.value.settings.value)
  }

  /** Shallow patch of one category: the patch's keys win, the others stay. */
  function Patch(settings: map<string, Value>, category: string, patch: map<string, Value>): (r: map<string, Value>)
    ensures r.Keys == settings.Keys + {category}
    ensures forall c :: c in settings && c != category ==> r[c] == settings[c]
    ensures r[category].Obj?
    ensures var before := SpreadFields(Get(settings, category));
      && r[category].fields.Keys == before.Keys + patch.Keys
      && (forall k :: k in patch ==> r[category].fields[k] == patch[k])
      && (forall k :: k in before && k !in patch ==> r[category].fields[k] == before[k])
  {
    settings[category := Obj(SpreadFields(Get(settings, category)) + patch)]
  }

  /** The `settings:updated` handler: an event without a category or
      settings leaves the page as it was; otherwise the category is patched
      key by key and the saved notice is shown. */
  function OnSettingsUpdated(p: Page, data: Option<UpdateEvent>): (r: Page)
    ensures !Acceptable(data) ==> r == p
    ensures Acceptable(data) ==>
      && r.settings == Patch(p.settings, data.value.category.value, SpreadFields(data.value.settings))
      && r.saved && r.activeTab == p.activeTab && r.loading == p.loading
  {
    if Acceptable(data) then
      var d := data.value;
      p.(settings := Patch(p.settings, d.category.value, SpreadFields(d.settings)), saved := true)
    else p
  }

  /** `fetchSettings` once the request completes: on success every category
      in the response replaces the page's as a whole and the others are
      kept; on failure (`None`) the settings are kept. Either way loading
      ends. */
  function FetchMerge(p: Page, response: Option<map<string, Value>>): (r: Page)
    ensures !r.loading && r.activeTab == p.activeTab && r.saved == p.saved
    ensures response.None? ==> r.settings == p.settings
    ensures response.Some? ==>
      && r.settings.Keys == p.settings.Keys + response.value.Keys
      && (forall c :: c in response.value ==> r.settings[c] == response.value[c])
      && (forall c :: c in p.settings && c !in response.value ==> r.settings[c] == p.settings[c])
  {
    match response
    case None => p.(loading := false)
    case Some(data) => p.(settings := p.settings + data, loading := false)
  }

  /** What a save sends: PUT to the active tab's category, with that one
      category's settings (undefined when the page has none). */
  datatype SaveRequest = SaveRequest(category: string, settings: Option<Value>)

  function SavePayload(p: Page): (req: SaveRequest)
    ensures req.category == p.activeTab
    ensures req.settings.Some? <==> p.activeTab in p.settings
    ensures p.activeTab in p.settings ==> req.settings.value == p.settings[p.activeTab]
  {
    SaveRequest(p.activeTab, Get(p.settings, p.activeTab))
  }

  /** `handleSave` once the request completes: the settings are untouched;
      the saved notice shows on success. */
  function SaveOutcome(p: Page, ok: bool): (r: Page)
    ensures r.settings == p.settings && r.activeTab == p.activeTab && r.loading == p.loading
    ensures ok ==> r.saved
    ensures !ok ==> r.saved == p.saved
  {
    if ok then p.(saved := true) else p
  }

  /** A server broadcast as the page's socket receives it. */
  function Received(u: SettingsUpdate): UpdateEvent {
    UpdateEvent(Some(u.category), Some(u.settings))
  }

  /** When the page's own save comes back as a broadcast, applying it
      changes no setting: the patch is the category's own contents. */
  lemma OwnBroadcastIsIdempotent(p: Page, username: Option<string>, now: int)
    requires p.activeTab in p.settings && p.settings[p.activeTab].Obj?
    requires p.activeTab != ""
    ensures var req := SavePayload(p);
      var broadcast := SettingsUpdate(req.category, req.settings.value, username, now);
      OnSettingsUpdated(p, Some(Received(broadcast))).settings == p.settings
  {
    var fields := p.settings[p.activeTab].fields;
    assert SpreadFields(Get(p.settings, p.activeTab)) + fields == fields;
    assert p.settings[p.activeTab := Obj(fields)] == p.settings;
  }

  /** An empty broadcast patch still turns a non-object category into an
      (empty) object, while an object category keeps its keys. */
  lemma EmptyPatchNormalises(settings: map<string, Value>, category: string)
    ensures category in settings && settings[category].Obj? ==> Patch(settings, category, map[]) == settings
    ensures category !in settings ==> Patch(settings, category, map[])[category] == Obj(map[])
  {
    if category in settings && settings[category].Obj? {
      var fields := settings[category].fields;
      assert fields + map[] == fields;
      assert settings[category := Obj(fields)] == settings;
    }
  }

  /** `handleReset` after a save by another admin: the re-fetch reads the
      merged settings from the server, and the saved category arrives on
      the page exactly as it was submitted. */
  method ResetAfterSave(store: SettingsCollection, p: Page, admin: AuthMiddleware.Claims, category: string,
                        settings: Value, now: int)
    returns (r: Page)
    requires store.Valid() && category in ValidCategories && admin.role == Some("admin")
    modifies store`docs, store`broadcasts
    ensures category in r.settings && r.settings[category] == settings
    ensures r.activeTab == p.activeTab && !r.loading
  {
    var _ := store.Put(admin, category, settings, now, Resolved);
    LookupUnique(store.docs, IndexOfCategory(store.docs, category).value);
    var all := store.GetAll(Resolved);
    r := FetchMerge(p, Some(all.body));
  }
}

=== FILE: settings_routes.dfy ===
/** The settings routes: the merged view of all categories (GET /), the
    per-category upsert with its broadcast (PUT /:category) and the
    per-category lookup (GET /:category). The Settings collection is the
    class `SettingsCollection`; a socket server registered on the app is the
    constant `ioConfigured`, and broadcasts are logged. */
module SettingsRoutes {
  import opened Common
  import AuthMiddleware

  /** A JSON value, as stored in the schema-less `settings` field. */
  datatype Value =
    | Null
    | Bool(b: bool)
    | Num(n: int)
    | Str(s: string)
    | List(items: seq<Value>)
    | Obj(fields: map<string, Value>)

  /** The six categories the routes accept (and the schema enumerates). */
  const ValidCategories: seq<string> :=
    ["general", "agents", "calls", "notifications", "security", "asterisk"]

  /** The built-in settings, one object per valid category. */
  function Defaults(): (d: map<string, Value>)
    ensures d.Keys == set c | c in ValidCategories
    ensures forall c :: c in d ==> d[c].Obj?
  {
    map[
      "general" := Obj(map[
        "systemName" := Str("Call Center Pro"),
        "timezone" := Str("UTC"),
        "language" := Str("English"),
        "autoLogout" := Num(30),
        "sessionTimeout" := Num(60)]),
      "agents" := Obj(map[
        "maxAgents" := Num(50),
        "defaultStatus" := Str("available"),
        "allowStatusChange" := Bool(true),
        "forceBreakTime" := Bool(false),
        "maxBreakDuration" := Num(15),
        "autoAssignCalls" := Bool(true)]),
      "calls" := Obj(map[
        "recordCalls" := Bool(true),
        "maxCallDuration" := Num(3600),
        "callTimeout" := Num(30),
        "enableTransfer" := Bool(true),
        "enableConference" := Bool(true),
        "enableHold" := Bool(true)]),
      "notifications" := Obj(map[
        "emailNotifications" := Bool(true),
        "smsNotifications" := Bool(false),
        "pushNotifications" := Bool(true),
        "soundAlerts" := Bool(true),
        "newAgentAlert" := Bool(true),
        "systemDownAlert" := Bool(true)]),
      "security" := Obj(map[
        "passwordMinLength" := Num(8),
        "requireSpecialChars" := Bool(true),
        "sessionSecurity" := Str("high"),
        "twoFactorAuth" := Bool(false),
        "ipWhitelist" := List([]),
        "loginAttempts" := Num(3)]),
      "asterisk" := Obj(map[
        "host" := Str("172.20.47.25"),
        "amiPort" := Num(5038),
        "sipPort" := Num(5060),
        "enableSIP" := Bool(true),
        "enableWebRTC" := Bool(true),
        "codecPreference" := Str("ulaw")])
    ]
  }

  /** A stored settings document. `updatedBy` is the updater's username,
      absent when the token carried none. */
  datatype SettingsDoc = SettingsDoc(category: string, settings: Value, updatedBy: Option<string>, updatedAt: int)

  /** The `settings:updated` event payload; an absent `updatedBy` is left
      out of the JSON. */
  datatype SettingsUpdate = SettingsUpdate(category: string, settings: Value, updatedBy: Option<string>, updatedAt: int)

  /** The body of a successful PUT. */
  datatype PutBody = PutBody(message: string, category: string, settings: Value)

  /** `findOne({ category })`: the settings of the document for `category`. */
  function Lookup(docs: seq<SettingsDoc>, category: string): (r: Option<Value>)
    ensures r.None? <==> forall k :: 0 <= k < |docs| ==> docs[k].category != category
    ensures r.Some? ==> exists k :: 0 <= k < |docs| && docs[k].category == category && docs[k].settings == r.value
  {
    if docs == [] then None
    else if docs[0].category == category then Some(docs[0].settings)
    else Lookup(docs[1..], category)
  }

  /** The unique index on `category`. */
  ghost predicate UniqueCategories(docs: seq<SettingsDoc>) {
    forall i, j :: 0 <= i < j < |docs| ==> docs[i].category != docs[j].category
  }

  /** With one document per category, the lookup finds that document. */
  lemma LookupUnique(docs: seq<SettingsDoc>, k: nat)
    requires UniqueCategories(docs) && k < |docs|
    ensures Lookup(docs, docs[k].category) == Some(docs[k].settings)
  {
    var r := Lookup(docs, docs[k].category);
    var k' :| 0 <= k' < |docs| && docs[k'].category == docs[k].category && docs[k'].settings == r.value;
    assert k' == k;
  }

  /** Position of the document for `category`. */
  function IndexOfCategory(docs: seq<SettingsDoc>, category: string): (k: Option<nat>)
    ensures k.Some? ==> k.value < |docs| && docs[k.value].category == category
    ensures k.None? ==> forall i :: 0 <= i < |docs| ==> docs[i].category != category
  {
    if docs == [] then None
    else if docs[0].category == category then Some(0)
    else match IndexOfCategory(docs[1..], category)
      case None => None
      case Some(k) => Some(k + 1)
  }

  /** `findOneAndUpdate({ category }, doc, { upsert: true })`: the
      category's document is replaced in place, or appended when there is
      none. */
  function Upsert(docs: seq<SettingsDoc>, doc: SettingsDoc): (r: seq<SettingsDoc>)
    ensures forall k :: 0 <= k < |r| ==> r[k] == doc || r[k] in docs
  {
    match IndexOfCategory(docs, doc.category)
    case Some(k) => docs[k := doc]
    case None => docs + [doc]
  }

  /** With one document per category, the upsert keeps one document per
      category, makes the lookup find the new settings, and leaves every
      other category's lookup as it was. */
  lemma UpsertFacts(docs: seq<SettingsDoc>, doc: SettingsDoc)
    requires UniqueCategories(docs)
    ensures UniqueCategories(Upsert(docs, doc))
    ensures Lookup(Upsert(docs, doc), doc.category) == Some(doc.settings)
    ensures forall c :: c != doc.category ==> Lookup(Upsert(docs, doc), c) == Lookup(docs, c)
  {
    var r := Upsert(docs, doc);
    UpsertShape(docs, doc);
    var k := if IndexOfCategory(docs, doc.category).Some? then IndexOfCategory(docs, doc.category).value else |docs|;
    assert k < |r| && r[k] == doc;
    LookupUnique(r, k);
    forall c | c != doc.category ensures Lookup(r, c) == Lookup(docs, c) {
      if j :| 0 <= j < |docs| && docs[j].category == c {
        assert r[j] == docs[j];
        LookupUnique(docs, j);
        LookupUnique(r, j);
      } else {
        assert forall j :: 0 <= j < |r| ==> r[j].category != c;
      }
    }
  }

  /** The upserted document is stored as given. */
  lemma UpsertStores(docs: seq<SettingsDoc>, doc: SettingsDoc)
    ensures doc in Upsert(docs, doc)
  {
    match IndexOfCategory(docs, doc.category)
    case Some(k) => assert Upsert(docs, doc)[k] == doc;
    case None => assert Upsert(docs, doc)[|docs|] == doc;
  }

  lemma UpsertShape(docs: seq<SettingsDoc>, doc: SettingsDoc)
    requires UniqueCategories(docs)
    ensures var r := Upsert(docs, doc);
      && UniqueCategories(r)
      && |docs| <= |r|
      && (forall j :: 0 <= j < |docs| && docs[j].category != doc.category ==> r[j] == docs[j])
      && (IndexOfCategory(docs, doc.category).Some? ==> r[IndexOfCategory(docs, doc.category).value] == doc)
      && (IndexOfCategory(docs, doc.category).None? ==> r[|docs|] == doc)
  {
  }

  class SettingsCollection {
    /** whether a socket server is registered on the app */
    const ioConfigured: bool
    var docs: seq<SettingsDoc>
    var broadcasts: seq<SettingsUpdate>

    /** One document per category, each of a valid category. */
    ghost predicate Valid()
      reads this
    {
      && UniqueCategories(docs)
      && forall k :: 0 <= k < |docs| ==> docs[k].category in ValidCategories
    }

    constructor (ioConfigured: bool)
      ensures Valid() && this.ioConfigured == ioConfigured
      ensures docs == [] && broadcasts == []
    {
      this.ioConfigured := ioConfigured;
      docs := [];
      broadcasts := [];
    }

    /** GET /: the query settles as `query`, and a rejection answers 500.
        Otherwise every default category is present and no other; a saved
        category replaces its default as a whole, and a category with no
        saved document keeps its default. */
    method GetAll(query: Settled) returns (reply: Reply<map<string, Value>>)
      requires Valid()
      ensures query.Rejected? ==> reply == Fail(500, query.error)
      ensures query.Resolved? ==> reply.Ok? && reply.code == 200
      ensures reply.Ok? ==> var r := reply.body;
        && r.Keys == Defaults().Keys
        && (forall k :: 0 <= k < |docs| ==> r[docs[k].category] == docs[k].settings)
        && (forall c :: c in Defaults() && Lookup(docs, c).None? ==> r[c] == Defaults()[c])
        && (forall c :: c in r ==> Lookup(docs, c).Some? ==> r[c] == Lookup(docs, c).value)
    {
      if query.Rejected? {
        return Fail(500, query.error);
      }
      var settingsObj: map<string, Value> := map[];
      var i := 0;
      while i < |docs|
        invariant 0 <= i <= |docs|
        invariant forall c :: c in settingsObj <==> exists k :: 0 <= k < i && docs[k].category == c
        invariant forall k :: 0 <= k < i ==> settingsObj[docs[k].category] == docs[k].settings
      {
        settingsObj := settingsObj[docs[i].category := docs[i].settings];
        i := i + 1;
      }
      var r := Defaults() + settingsObj;
      forall c | c in r && Lookup(docs, c).Some? ensures r[c] == Lookup(docs, c).value {
        var k :| 0 <= k < |docs| && docs[k].category == c && docs[k].settings == Lookup(docs, c).value;
      }
      reply := Ok(200, r);
    }

    /** PUT /:category, behind its `adminOnly` gate: a user who is not an
        admin is refused with 403 and an unknown category with 400, and
        nothing is written. Otherwise the upsert settles as `write`: a
        rejection answers 500, writes nothing and broadcasts nothing. On
        success the category's document is created or replaced by the
        submitted settings, every other category keeps its document, and
        when a socket server is registered the same category and settings
        are broadcast. */
    method Put(user: AuthMiddleware.Claims, category: string, settings: Value, now: int, write: Settled)
      returns (reply: Reply<PutBody>)
      requires Valid()
      modifies this`docs, this`broadcasts
      ensures Valid()
      ensures user.role != Some("admin") ==>
        && reply == Fail(403, "Admin access required")
        && docs == old(docs) && broadcasts == old(broadcasts)
      ensures user.role == Some("admin") && category !in ValidCategories ==>
        && reply == Fail(400, "Invalid settings category")
        && docs == old(docs) && broadcasts == old(broadcasts)
      ensures user.role == Some("admin") && category in ValidCategories && write.Rejected? ==>
        && reply == Fail(500, write.error)
        && docs == old(docs) && broadcasts == old(broadcasts)
      ensures user.role == Some("admin") && category in ValidCategories && write.Resolved? ==>
        && Lookup(docs, category) == Some(settings)
        && SettingsDoc(category, settings, user.username, now) in docs
        && (forall c :: c != category ==> Lookup(docs, c) == Lookup(old(docs), c))
        && broadcasts == old(broadcasts)
             + (if ioConfigured then [SettingsUpdate(category, settings, user.username, now)] else [])
        && reply == Ok(200, PutBody("Settings updated successfully", category, settings))
    {
      var gate := AuthMiddleware.AdminOnly(Some(user));
      if gate.Reject? {
        return Fail(gate.code, gate.message);
      }
      var username := user.username;
      if category !in ValidCategories {
        return Fail(400, "Invalid settings category");
      }
      if write.Rejected? {
        return Fail(500, write.error);
      }
      var doc := SettingsDoc(category, settings, username, now);
      UpsertFacts(docs, doc);
      UpsertStores(docs, doc);
      docs := Upsert(docs, doc);
      if ioConfigured {
        broadcasts := broadcasts + [SettingsUpdate(category, settings, username, now)];
      }
      reply := Ok(200, PutBody("Settings updated successfully", category, settings));
    }

    /** GET /:category: the query settles as `query`, and a rejection
        answers 500. Otherwise the stored settings of the category, or 404
        when it has no document (a valid category with no saved document
        too). */
    method GetCategory(category: string, query: Settled) returns (reply: Reply<Value>)
      ensures query.Rejected? ==> reply == Fail(500, query.error)
      ensures query.Resolved? && Lookup(docs, category).None? ==> reply == Fail(404, "Settings not found")
      ensures query.Resolved? && Lookup(docs, category).Some? ==> reply == Ok(200, Lookup(docs, category).value)
    {
      if query.Rejected? {
        return Fail(500, query.error);
      }
      var k := IndexOfCategory(docs, category);
      if k.None? {
        return Fail(404, "Settings not found");
      }
      FirstIndexIsLookup(docs, category);
      reply := Ok(200, docs[k.value].settings);
    }
  }

  /** The position search and the lookup find the same document. */
  lemma {:induction false} FirstIndexIsLookup(docs: seq<SettingsDoc>, category: string)
    requires IndexOfCategory(docs, category).Some?
    ensures Lookup(docs, category) == Some(docs[IndexOfCategory(docs, category).value].settings)
  {
    if docs[0].category != category {
      FirstIndexIsLookup(docs[1..], category);
    }
  }

  /** After an admin's successful PUT of a valid category the lookup route
      returns exactly the submitted settings. */
  method PutThenGet(store: SettingsCollection, admin: AuthMiddleware.Claims, category: string, settings: Value,
                    now: int)
    returns (reply: Reply<Value>)
    requires store.Valid() && category in ValidCategories && admin.role == Some("admin")
    modifies store`docs, store`broadcasts
    ensures reply == Ok(200, settings)
  {
    var _ := store.Put(admin, category, settings, now, Resolved);
    reply := store.GetCategory(category, Resolved);
  }
}

=== FILE: sip_call.dfy ===
/** The client call-leg state machine of the agent softphone hook.

    The hook keeps three session slots (the active `session`, the
    `heldSession` and the `incomingSession`), a `callStatus` and two flags.
    Sessions are objects of the SIP library; the hook compares them by
    identity, so they are Dafny objects here too. Every promise the hook
    waits on (accept, the re-INVITE that holds or resumes a call) is one
    atomic step whose outcome is a parameter, and the library's session
    state changes are delivered to `SessionStateChanged`. The 2-second
    `ended` to `idle` timer is an explicit step, `IdleTimerFires`. */
module SipCall {
  import opened Common

  datatype CallStatus = Idle | Incoming | Calling | Connected | Ended

  /** The states of a session of the SIP library. */
  datatype SessionState = Initial | Establishing | Established | Terminating | Terminated

  /** What `hangup` sends on the active session. */
  datatype HangupSignal = SendBye | SendCancel | NoSignal

  /** A session of the SIP library: an outbound `Inviter` or an inbound
      `Invitation`. Only the library changes its state. */
  class SipSession {
    const outbound: bool
    /** the remote party: the target URI for an outbound call, the caller otherwise */
    const remote: string
    var state: SessionState

    constructor (outbound: bool, remote: string)
      ensures this.outbound == outbound && this.remote == remote && state == Initial
    {
      this.outbound := outbound;
      this.remote := remote;
      state := Initial;
    }

    /** The library moves the session to a new state. */
    method Change(newState: SessionState)
      modifies this`state
      ensures state == newState
    {
      state := newState;
    }
  }

  class Phone {
    /** A user agent exists once the hook had a name, a password, a server
        address and a valid SIP URI. */
    const hasUserAgent: bool
    const asteriskIp: string

    var session: SipSession?
    var heldSession: SipSession?
    var incomingSession: SipSession?
    var callStatus: CallStatus
    var isOnHold: bool
    var isMuted: bool
    /** `ended` to `idle` timers scheduled and not yet fired */
    var pendingIdleTimers: nat

    constructor (agentName: string, agentPassword: string, asteriskIp: string, uriValid: bool)
      ensures hasUserAgent == (agentName != "" && agentPassword != "" && asteriskIp != "" && uriValid)
      ensures this.asteriskIp == asteriskIp
      ensures session == null && heldSession == null && incomingSession == null
      ensures callStatus == Idle && !isOnHold && !isMuted && pendingIdleTimers == 0
    {
      hasUserAgent := agentName != "" && agentPassword != "" && asteriskIp != "" && uriValid;
      this.asteriskIp := asteriskIp;
      session, heldSession, incomingSession := null, null, null;
      callStatus, isOnHold, isMuted, pendingIdleTimers := Idle, false, false, 0;
    }

    /** The effect of cleaning up after the active session terminated, as a
        relation between the state before and after: a held session is
        resumed when its un-hold re-INVITE succeeds, and otherwise the phone
        shows `ended` and schedules the return to `idle`. */
    twostate predicate TerminationEffect(unholdOk: bool)
      reads this
    {
      if old(heldSession) != null && unholdOk then
        && session == old(heldSession) && heldSession == null
        && callStatus == Connected && !isOnHold && isMuted == old(isMuted)
        && pendingIdleTimers == old(pendingIdleTimers)
      else if old(heldSession) != null then
        && session == null && heldSession == null && callStatus == Ended
        && isOnHold == old(isOnHold) && isMuted == old(isMuted)
        && pendingIdleTimers == old(pendingIdleTimers) + 1
      else
        && session == null && heldSession == null && callStatus == Ended
        && !isOnHold && !isMuted
        && pendingIdleTimers == old(pendingIdleTimers) + 1
    }

    /** An inbound INVITE: it always becomes the incoming session, and the
        status shows `incoming` only when no call is active (call waiting). */
    method HandleIncomingCall(invitation: SipSession)
      requires !invitation.outbound
      modifies this`callStatus, this`incomingSession
      ensures incomingSession == invitation
      ensures callStatus == (if old(session) == null then Incoming else old(callStatus))
    {
      if session == null {
        callStatus := Incoming;
      }
      incomingSession := invitation;
    }

    /** Cleanup after the active session ended. Returns the held session an
        un-hold re-INVITE was sent to, if any. */
    method HandleSessionTermination(unholdOk: bool) returns (unholdSentTo: SipSession?)
      modifies this`session, this`heldSession, this`callStatus, this`isOnHold, this`isMuted,
        this`pendingIdleTimers
      ensures unholdSentTo == old(heldSession)
      ensures TerminationEffect(unholdOk)
    {
      unholdSentTo := heldSession;
      if heldSession != null {
        var held := heldSession;
        if unholdOk {
          session := held;
          heldSession := null;
          callStatus := Connected;
          isOnHold := false;
        } else {
          session := null;
          heldSession := null;
          callStatus := Ended;
          pendingIdleTimers := pendingIdleTimers + 1;
        }
      } else {
        callStatus := Ended;
        session := null;
        isMuted := false;
        isOnHold := false;
        pendingIdleTimers := pendingIdleTimers + 1;
      }
    }

    /** The state-change listener of a session, run after the library moved
        `s` to `s.state`. An outbound session reports `calling` and
        `connected`; any session that terminates while it is the active one
        triggers the cleanup; an inbound session that terminates also leaves
        the incoming slot if it still occupies it. */
    method SessionStateChanged(s: SipSession, unholdOk: bool) returns (unholdSentTo: SipSession?)
      modifies this`session, this`heldSession, this`incomingSession, this`callStatus,
        this`isOnHold, this`isMuted, this`pendingIdleTimers
      ensures s.outbound && s.state == Establishing ==>
        callStatus == Calling && unholdSentTo == null && unchanged(this`session, this`heldSession,
        this`incomingSession, this`isOnHold, this`isMuted, this`pendingIdleTimers)
      ensures s.outbound && s.state == Established ==>
        callStatus == Connected && unholdSentTo == null && unchanged(this`session, this`heldSession,
        this`incomingSession, this`isOnHold, this`isMuted, this`pendingIdleTimers)
      ensures s.state == Terminated ==>
        incomingSession == (if !s.outbound && old(incomingSession) == s then null else old(incomingSession))
      ensures s.state == Terminated && old(session) == s ==>
        unholdSentTo == old(heldSession) && TerminationEffect(unholdOk)
      ensures s.state == Terminated && old(session) != s ==>
        unholdSentTo == null &&
        unchanged(this`session, this`heldSession, this`callStatus, this`isOnHold, this`isMuted,
          this`pendingIdleTimers)
      ensures s.state !in {Establishing, Established, Terminated} || (!s.outbound && s.state != Terminated) ==>
        unholdSentTo == null && unchanged(this)
    {
      unholdSentTo := null;
      if s.outbound {
        match s.state {
          case Establishing =>
            callStatus := Calling;
          case Established =>
            callStatus := Connected;
          case Terminated =>
            if session == s {
              unholdSentTo := HandleSessionTermination(unholdOk);
            }
          case _ =>
        }
      } else if s.state == Terminated {
        if incomingSession == s {
          incomingSession := null;
        }
        if session == s {
          unholdSentTo := HandleSessionTermination(unholdOk);
        }
      }
    }

    /** Answers the incoming session. With a call active, that call is sent a
        hold re-INVITE (whose outcome is ignored), moves to the held slot and
        the hold flag is reset for the new call; then the incoming session is
        accepted and, on success, becomes the active `connected` call. The
        incoming slot keeps the answered session. Returns the session put on
        hold, if any. */
    method AnswerCall(acceptOk: bool) returns (holdSentTo: SipSession?)
      modifies this`heldSession, this`isOnHold, this`session, this`callStatus
      ensures old(incomingSession) == null ==>
        holdSentTo == null && unchanged(this`heldSession, this`isOnHold, this`session, this`callStatus)
      ensures old(incomingSession) != null ==>
        && holdSentTo == old(session)
        && heldSession == (if old(session) != null then old(session) else old(heldSession))
        && isOnHold == (old(session) == null && old(isOnHold))
        && session == (if acceptOk then old(incomingSession) else old(session))
        && callStatus == (if acceptOk then Connected else old(callStatus))
    {
      holdSentTo := null;
      if incomingSession == null {
        return;
      }
      var answering := incomingSession;
      if session != null {
        holdSentTo := session;
        heldSession := session;
        isOnHold := false;
      }
      if acceptOk {
        session := answering;
        callStatus := Connected;
      }
    }

    /** Places an outbound call to `sip:<target>@<server>`. Nothing happens
        without a user agent or when the URI is invalid; otherwise a new
        outbound session replaces the active slot (the status changes only
        when the library reports progress). */
    method MakeCall(target: string, targetUriValid: bool) returns (inviter: SipSession?)
      modifies this`session
      ensures inviter == null <==> !(hasUserAgent && targetUriValid)
      ensures inviter == null ==> session == old(session)
      ensures inviter != null ==>
        && fresh(inviter) && inviter.outbound && inviter.state == Initial
        && inviter.remote == "sip:" + target + "@" + asteriskIp
        && session == inviter
    {
      inviter := null;
      if !hasUserAgent || !targetUriValid {
        return;
      }
      inviter := new SipSession(true, "sip:" + target + "@" + asteriskIp);
      session := inviter;
    }

    /** Hangs up: sends BYE on an established active session or CANCEL on an
        establishing one, rejects a still-live incoming session, then clears
        the active and incoming slots, shows `idle` and resets both flags.

        A BYE terminates the session at once, so its listener runs the
        cleanup before the hook's own updates: a held session is sent the
        un-hold re-INVITE (outcome `unholdOk`), which settles after them and
        so has the last word; with nothing held the cleanup schedules the
        idle timer, and `idle` is shown at once. An answered invitation that
        is the active call is terminated by the BYE and is not rejected. A
        CANCEL only moves the session to terminating, which no listener
        acts on. */
    method Hangup(unholdOk: bool) returns (signal: HangupSignal, rejectIncoming: bool, unholdSentTo: SipSession?)
      modifies this`session, this`heldSession, this`incomingSession, this`callStatus, this`isMuted,
        this`isOnHold, this`pendingIdleTimers, session
      ensures signal == (if old(session) == null then NoSignal
                         else if old(session.state) == Established then SendBye
                         else if old(session.state) == Establishing then SendCancel
                         else NoSignal)
      ensures signal == SendBye ==> old(session).state == Terminated
      ensures signal != SendBye && old(session) != null ==> old(session).state == old(session.state)
      ensures rejectIncoming <==> old(incomingSession) != null && old(incomingSession).state != Terminated
      ensures signal == SendBye && old(incomingSession) == old(session) ==> !rejectIncoming
      ensures incomingSession == null && !isMuted
      ensures unholdSentTo == (if signal == SendBye then old(heldSession) else null)
      ensures signal != SendBye ==>
        && session == null && heldSession == old(heldSession)
        && callStatus == Idle && !isOnHold && pendingIdleTimers == old(pendingIdleTimers)
      ensures signal == SendBye && old(heldSession) == null ==>
        && session == null && heldSession == null
        && callStatus == Idle && !isOnHold && pendingIdleTimers == old(pendingIdleTimers) + 1
      ensures signal == SendBye && old(heldSession) != null && unholdOk ==>
        && session == old(heldSession) && heldSession == null
        && callStatus == Connected && !isOnHold && pendingIdleTimers == old(pendingIdleTimers)
      ensures signal == SendBye && old(heldSession) != null && !unholdOk ==>
        && session == null && heldSession == null
        && callStatus == Ended && !isOnHold && pendingIdleTimers == old(pendingIdleTimers) + 1
    {
      signal := NoSignal;
      unholdSentTo := null;
      if session != null {
        if session.state == Established {
          signal := SendBye;
          session.Change(Terminated);
        } else if session.state == Establishing {
          signal := SendCancel;
        }
      }
      rejectIncoming := incomingSession != null && incomingSession.state != Terminated;
      var held := heldSession;
      session := null;
      incomingSession := null;
      callStatus := Idle;
      isMuted := false;
      isOnHold := false;
      if signal == SendBye {
        unholdSentTo := held;
        if held == null {
          pendingIdleTimers := pendingIdleTimers + 1;
        } else if unholdOk {
          session := held;
          heldSession := null;
          callStatus := Connected;
        } else {
          heldSession := null;
          callStatus := Ended;
          pendingIdleTimers := pendingIdleTimers + 1;
        }
      }
    }

    /** Flips the mute flag when there is an active session with a media
        connection (the audio tracks are toggled alongside). */
    method ToggleMute(hasPeerConnection: bool)
      modifies this`isMuted
      ensures isMuted == (if session != null && hasPeerConnection then !old(isMuted) else old(isMuted))
    {
      if session == null || !hasPeerConnection {
        return;
      }
      isMuted := !isMuted;
    }

    /** Holds or resumes the active call with a re-INVITE. Nothing is sent
        unless the active session is established; the flag flips only after
        the re-INVITE succeeds. Returns the `hold` value that was requested. */
    method ToggleHold(reinviteOk: bool) returns (holdRequested: Option<bool>)
      modifies this`isOnHold
      ensures (session == null || session.state != Established) ==>
        holdRequested == None && isOnHold == old(isOnHold)
      ensures session != null && session.state == Established ==>
        holdRequested == Some(!old(isOnHold)) &&
        isOnHold == (if reinviteOk then !old(isOnHold) else old(isOnHold))
    {
      if session == null || session.state != Established {
        return None;
      }
      holdRequested := Some(!isOnHold);
      if reinviteOk {
        isOnHold := !isOnHold;
      }
    }

    /** A DTMF tone goes out only on an established active session. */
    method SendDtmf(tone: string) returns (sent: bool)
      ensures sent <==> session != null && session.state == Established
    {
      sent := session != null && session.state == Established;
    }

    /** One scheduled 2-second timer fires and sets `idle`, whatever the
        phone is doing by then. */
    method IdleTimerFires()
      requires pendingIdleTimers > 0
      modifies this`callStatus, this`pendingIdleTimers
      ensures callStatus == Idle && pendingIdleTimers == old(pendingIdleTimers) - 1
    {
      callStatus := Idle;
      pendingIdleTimers := pendingIdleTimers - 1;
    }

    /** The timer as evidently intended: it returns the phone to `idle` only
        while it still shows `ended`, so a call answered or placed in the
        meantime keeps its status. */
    method IdleTimerFiresCorrected()
      requires pendingIdleTimers > 0
      modifies this`callStatus, this`pendingIdleTimers
      ensures callStatus == (if old(callStatus) == Ended then Idle else old(callStatus))
      ensures pendingIdleTimers == old(pendingIdleTimers) - 1
    {
      if callStatus == Ended {
        callStatus := Idle;
      }
      pendingIdleTimers := pendingIdleTimers - 1;
    }
  }

  /** Call waiting end to end: a call from 1002 is answered, a call from 1003
      arrives while it is active and is answered, 1002 is held; when 1003
      hangs up, 1002 is resumed and is the connected call again. */
  method CallWaitingScenario() returns (heldWhileSecond: string, activeAfter: string, status: CallStatus)
    ensures heldWhileSecond == "1002" && activeAfter == "1002" && status == Connected
  {
    var phone := new Phone("1001", "secret", "10.0.0.5", true);
    var first := new SipSession(false, "1002");
    phone.HandleIncomingCall(first);
    assert phone.callStatus == Incoming;
    var held := phone.AnswerCall(true);
    first.Change(Established);

    var second := new SipSession(false, "1003");
    phone.HandleIncomingCall(second);
    assert phone.callStatus == Connected;
    held := phone.AnswerCall(true);
    heldWhileSecond := phone.heldSession.remote;

    second.Change(Terminated);
    var resumed := phone.SessionStateChanged(second, true);
    activeAfter := phone.session.remote;
    status := phone.callStatus;
  }

  /** Call waiting ended by the agent: while 1002 is held, hanging up the
      answered call from 1003 resumes 1002 as the connected call. */
  method HangupResumesHeldScenario() returns (activeAfter: string, status: CallStatus, rejected: bool)
    ensures activeAfter == "1002" && status == Connected && !rejected
  {
    var phone := new Phone("1001", "secret", "10.0.0.5", true);
    var first := new SipSession(false, "1002");
    phone.HandleIncomingCall(first);
    var _ := phone.AnswerCall(true);
    first.Change(Established);

    var second := new SipSession(false, "1003");
    phone.HandleIncomingCall(second);
    var _ := phone.AnswerCall(true);
    second.Change(Established);
    assert phone.heldSession == first && phone.session == second && phone.incomingSession == second;

    var signal, unholdSentTo;
    signal, rejected, unholdSentTo := phone.Hangup(true);
    activeAfter := phone.session.remote;
    status := phone.callStatus;
  }

  /** A call that ends with nothing held shows `ended` until its timer
      fires, then `idle`. */
  method EndedThenIdleScenario() returns (afterEnd: CallStatus, afterTimer: CallStatus)
    ensures afterEnd == Ended && afterTimer == Idle
  {
    var phone := new Phone("1001", "secret", "10.0.0.5", true);
    var call := phone.MakeCall("1002", true);
    call.Change(Establishing);
    var _ := phone.SessionStateChanged(call, true);
    assert phone.callStatus == Calling;
    call.Change(Terminated);
    var _ := phone.SessionStateChanged(call, true);
    afterEnd := phone.callStatus;
    phone.IdleTimerFires();
    afterTimer := phone.callStatus;
  }

  /** A call ends with nothing held and, within the two seconds, the next
      call is answered: the stale timer then shows `idle` during a connected
      call. With the corrected timer the call stays `connected`. */
  method StaleIdleTimerScenario() returns (status: CallStatus, onCall: bool)
    ensures onCall && status == Idle
  {
    var phone := new Phone("1001", "secret", "10.0.0.5", true);
    var first := phone.MakeCall("1002", true);
    first.Change(Established);
    var _ := phone.SessionStateChanged(first, true);
    first.Change(Terminated);
    var _ := phone.SessionStateChanged(first, true);
    assert phone.callStatus == Ended && phone.pendingIdleTimers == 1;

    var next := new SipSession(false, "1003");
    phone.HandleIncomingCall(next);
    var _ := phone.AnswerCall(true);
    assert phone.session == next && phone.callStatus == Connected;
    phone.IdleTimerFires();
    status, onCall := phone.callStatus, phone.session == next;
  }

  method StaleIdleTimerScenarioCorrected() returns (status: CallStatus, onCall: bool)
    ensures onCall && status == Connected
  {
    var phone := new Phone("1001", "secret", "10.0.0.5", true);
    var first := phone.MakeCall("1002", true);
    first.Change(Established);
    var _ := phone.SessionStateChanged(first, true);
    first.Change(Terminated);
    var _ := phone.SessionStateChanged(first, true);

    var next := new SipSession(false, "1003");
    phone.HandleIncomingCall(next);
    var _ := phone.AnswerCall(true);
    phone.IdleTimerFiresCorrected();
    status, onCall := phone.callStatus, phone.session == next;
  }
}

=== FILE: sorting.dfy ===
/** A stable insertion sort by an integer key. It stands for the library sorts
    the backend relies on: MongoDB's `.sort({ timestamp: 1 })` and the
    JavaScript `Array.prototype.sort` with a timestamp comparator. */
module Sorting {
  import opened Common

  /** Keys never decrease from left to right. */
  ghost predicate SortedBy<T>(s: seq<T>, key: T -> int) {
    forall i, j :: 0 <= i < j < |s| ==> key(s[i]) <= key(s[j])
  }

  /** Inserts `x` before the first element whose key is not smaller. */
  function InsertBy<T>(x: T, s: seq<T>, key: T -> int): (r: seq<T>)
    requires SortedBy(s, key)
    ensures SortedBy(r, key)
    ensures multiset(r) == multiset(s) + multiset{x}
    ensures |r| == |s| + 1
    ensures r[0] == x || (s != [] && r[0] == s[0])
  {
    if s == [] then [x]
    else if key(x) <= key(s[0]) then
      ConsSorted(x, s, key);
      [x] + s
    else
      var rest := InsertBy(x, s[1..], key);
      assert s == [s[0]] + s[1..];
      assert key(s[0]) <= key(rest[0]);
      ConsSorted(s[0], rest, key);
      [s[0]] + rest
  }

  /** An element no larger than the head of a sorted sequence can go in
      front of it. */
  lemma ConsSorted<T>(h: T, t: seq<T>, key: T -> int)
    requires SortedBy(t, key)
    requires t != [] ==> key(h) <= key(t[0])
    ensures SortedBy([h] + t, key)
  {
    var r := [h] + t;
    forall i, j | 0 <= i < j < |r| ensures key(r[i]) <= key(r[j]) {
      assert r[j] == t[j - 1];
      if i > 0 {
        assert r[i] == t[i - 1];
      } else if j > 1 {
        assert key(t[0]) <= key(t[j - 1]);
      }
    }
  }

  /** The sorted arrangement of `s`: ordered by key and a permutation of `s`. */
  function SortBy<T>(s: seq<T>, key: T -> int): (r: seq<T>)
    ensures SortedBy(r, key)
    ensures multiset(r) == multiset(s)
    ensures |r| == |s|
  {
    if s == [] then []
    else
      assert s == [s[0]] + s[1..];
      InsertBy(s[0], SortBy(s[1..], key), key)
  }

  /** Splitting a sorted sequence: nothing after position `k` has a smaller
      key than anything before it. */
  lemma SortedSplit<T>(s: seq<T>, key: T -> int, k: nat)
    requires SortedBy(s, key) && k <= |s|
    ensures forall x, y :: x in s[..k] && y in s[k..] ==> key(x) <= key(y)
  {
    forall x, y | x in s[..k] && y in s[k..] ensures key(x) <= key(y) {
      var i :| 0 <= i < k && s[..k][i] == x;
      var j :| 0 <= j < |s| - k && s[k..][j] == y;
      assert s[k + j] == y;
    }
  }

  /** The elements whose key is `k`. */
  function WithKey<T>(s: seq<T>, key: T -> int, k: int): seq<T> {
    Filter(s, (x: T) => key(x) == k)
  }

  /** Inserting puts `x` before every element with its key, so among equal
      keys it comes first. */
  lemma {:induction false} InsertByStable<T>(x: T, s: seq<T>, key: T -> int, k: int)
    requires SortedBy(s, key)
    ensures WithKey(InsertBy(x, s, key), key, k) == (if key(x) == k then [x] else []) + WithKey(s, key, k)
  {
    var p := (y: T) => key(y) == k;
    if s == [] {
      assert InsertBy(x, s, key) == [x];
    } else if key(x) <= key(s[0]) {
      FilterAppend([x], s, p);
    } else {
      var rest := InsertBy(x, s[1..], key);
      InsertByStable(x, s[1..], key, k);
      assert s == [s[0]] + s[1..];
      FilterAppend([s[0]], rest, p);
      FilterAppend([s[0]], s[1..], p);
      if key(x) == k {
        assert !p(s[0]);
      }
    }
  }

  /** The sort is stable: the elements with any one key keep their input
      order. */
  lemma {:induction false} SortByStable<T>(s: seq<T>, key: T -> int, k: int)
    ensures WithKey(SortBy(s, key), key, k) == WithKey(s, key, k)
  {
    if s != [] {
      SortByStable(s[1..], key, k);
      InsertByStable(s[0], SortBy(s[1..], key), key, k);
      assert s == [s[0]] + s[1..];
      FilterAppend([s[0]], s[1..], (y: T) => key(y) == k);
    }
  }
}
